=== FILE: README.md ===
# Serverless adapter and home-page logic of the Oasis storefront

This project models two parts of the storefront in Dafny.

**The serverless function adapter** (`netlify/functions/api.ts`) turns a host
invocation event into an Express-style request. It then runs the app against a
buffering stand-in for an Express response. The returned promise is settled by
whichever of these comes first:
- the app completing the response (`end`, `json` or `send`);
- a 25-second timeout, which answers 504;
- an exception reaching the outer catch, which answers 500. When the thrown
  value is null or undefined, reading its `message` throws inside the catch, and
  the promise is rejected instead.

The app's `next(err)` continuation clears the timer. Called with an error on a
response not yet answered, it sets status 500 and the `responseResolved` flag,
and then calls `json`, which the flag has already turned into a no-op. Nothing
is answered and the promise stays pending (see Findings). Otherwise it only
clears the timer. The model follows this code.

`write` and `end` call `Buffer.from` on a chunk that is not a Buffer, and that
call throws for a number, a boolean, null, undefined, or an object that is
neither array-like nor the JSON form of a Buffer (`{type: "Buffer", data: [...]}`). In `end` the throw comes after the response is marked ended and
before the flag is set, so only the timer can still answer.

The model has these modules:
- **Normalizer** maps an event to a request.
- **Adapter** models one invocation. The datatype `State` holds the emulator's
  fields, the chunk buffer, the `responseResolved` flag, the timer and the
  promise's value or rejection. An `After…` function gives the state after each operation.
  The class `Invocation` performs the same operations in place. The module's
  functions `Step` and `Run` treat the race between the completion sources as an
  arbitrary sequence of `Trigger`s.
- **AdapterLemmas** proves properties over every such sequence.
- **Utf8** and **JsonText** give concrete models of `Buffer.from`,
  `toString("utf-8")`, `String(...)` and `JSON.stringify` for the values the
  adapter handles.

**The home page** (`client/pages/Index.tsx`) contributes three pieces:
- the featured strip: the first four highlighted products, each shown with a
  badge;
- the hidden key sequence "331548", which opens the import dialog;
- the blank-URL guard that starts the import handler.

## Model

| member | source | states |
|---|---|---|
| Utf8.Encode | netlify/functions/api.ts:45 | `Buffer.from` of a string; specified by Utf8.EncodeAppend and, with Utf8.Decode, by Utf8.RoundTrip |
| Utf8.Flatten | netlify/functions/api.ts:56 | `Buffer.concat`; specified by Utf8.FlattenAppend |
| Utf8.Decode | netlify/functions/api.ts:56 | `toString("utf-8")`; specified by Utf8.DecodeEncodeChar, Utf8.DecodeEncode and Utf8.RoundTrip |
| Utf8.EncodeChar | netlify/functions/api.ts:45 | one character encodes to between one and four bytes |
| Utf8.EncodeAppend | netlify/functions/api.ts:45 | encoding a concatenation is the concatenation of the encodings |
| Utf8.FlattenAppend | netlify/functions/api.ts:56 | `Buffer.concat` of two chunk lists is the concatenation of their results |
| Utf8.DecodeEncodeChar | netlify/functions/api.ts:56 | decoding reads back the encoded character and resumes right after its bytes |
| Utf8.DecodeEncode | netlify/functions/api.ts:56 | decoding the encoding of a text followed by any bytes gives the text followed by the decoding of those bytes |
| Utf8.RoundTrip | netlify/functions/api.ts:54-56 | a string sent through `Buffer.from` and `toString("utf-8")` comes back unchanged |
| JsonText.Message | netlify/functions/api.ts:113-121 | reading `message` of null or undefined throws; of any other value but an object it gives undefined |
| JsonText.PrimitiveString | netlify/functions/api.ts:88 | `String(data)` for a primitive; specified by AdapterLemmas.SendPrimitiveIsEnd |
| JsonText.Stringify | netlify/functions/api.ts:12 | `JSON.stringify` yields no text exactly for undefined |
| JsonText.EscapePlain | netlify/functions/api.ts:101 | text without quotes, backslashes or control characters is written unescaped |
| JsonText.StringifyPlainMember | netlify/functions/api.ts:101 | an object with one plain string member is written `{"key":"value"}` |
| JsonText.UnescapeEscape | netlify/functions/api.ts:68 | the string literal `JSON.stringify` writes reads back as the original string |
| Normalizer.BodyText | netlify/functions/api.ts:10-13 | a falsy body gives "", a string body is kept, any other body becomes its JSON text |
| Normalizer.DecodeBody | netlify/functions/api.ts:24 | empty text gives {}, text that parses gives the parsed value, other text stays a string |
| Normalizer.Normalize | netlify/functions/api.ts:20-27 | method defaults to GET, url falls back from rawUrl to path to "/", headers and query default to {}, params is {}, and rawBody is the body text |
| Normalizer.AbsentBodyIsEmptyObject | netlify/functions/api.ts:10-24 | an event without a truthy body yields body {} and rawBody "" |
| Normalizer.UnparsableTextKept | netlify/functions/api.ts:24 | body text that does not parse reaches the app unchanged |
| Normalizer.StructuredBodyRoundTrip | netlify/functions/api.ts:11-24 | a structured body is re-encoded and re-parsed: it arrives unchanged iff parsing its JSON text gives it back |
| Adapter.ErrorPayload | netlify/functions/api.ts:113-121 | the error object can be built exactly when the error is neither null nor undefined |
| Adapter.AfterWrite | netlify/functions/api.ts:44-47 | `write` on the state; specified by AdapterLemmas.WriteThrowKeepsState, AdapterLemmas.RunWrites and Adapter.Invocation.Write |
| Adapter.AfterEnd | netlify/functions/api.ts:49-63 | `end` on the state; specified by AdapterLemmas.EndSettles, AdapterLemmas.EndIsIdempotent, AdapterLemmas.StatusBeforeEndDecides and AdapterLemmas.EndThrowLeavesTimeout |
| Adapter.AfterJson | netlify/functions/api.ts:65-71 | `json` on the state; specified by AdapterLemmas.JsonSettles and AdapterLemmas.JsonHeaders |
| Adapter.AfterStatus | netlify/functions/api.ts:73-76 | `status` on the state; specified by AdapterLemmas.StatusBeforeEndDecides and AdapterLemmas.StatusAfterSettlement |
| Adapter.AfterSend | netlify/functions/api.ts:83-91 | `send` on the state; specified by AdapterLemmas.SendObjectIsJson, AdapterLemmas.SendPrimitiveIsEnd and AdapterLemmas.SendHeaders |
| Adapter.AfterTimeout | netlify/functions/api.ts:95-104 | the timer callback on the state; specified by AdapterLemmas.TimeoutFallback and AdapterLemmas.NextErrorDefeatsTimeout |
| Adapter.AfterNext | netlify/functions/api.ts:107-115 | the continuation as written; specified by AdapterLemmas.NextErrorNeverSettles, AdapterLemmas.NextWithoutErrorDisarms and AdapterLemmas.NextHeaders |
| Adapter.AfterNextCorrected | netlify/functions/api.ts:107-115 | the continuation as evidently intended; specified by AdapterLemmas.NextErrorSettles |
| Adapter.AfterCatch | netlify/functions/api.ts:116-122 | the outer catch on the state; specified by AdapterLemmas.CatchOutcome and AdapterLemmas.RejectedStaysRejected |
| Adapter.Step | netlify/functions/api.ts:44-122 | one trigger of the race; specified by AdapterLemmas.SettledStaysSettled, AdapterLemmas.ArmedStep and AdapterLemmas.LowerKeysStep |
| Adapter.Run | netlify/functions/api.ts:44-122 | a sequence of triggers; specified by AdapterLemmas.RunAppend, AdapterLemmas.RunKeepsSettlement and AdapterLemmas.SettlesAtMostOnce |
| Adapter.ContentTypeKey | netlify/functions/api.ts:67-79 | the name `json` passes to `setHeader` is stored as `content-type` |
| Adapter.AfterSetHeader | netlify/functions/api.ts:78-81 | `setHeader` stores the value under the lower-cased name, keeps every other header, and changes nothing else |
| Adapter.Invocation.constructor | netlify/functions/api.ts:38-42 | a new invocation has status 200, the JSON content type under the key `Content-Type` as written, no chunks, the flag clear, the timer armed and the promise pending |
| Adapter.Invocation.Resolve | netlify/functions/api.ts:7 | `resolve` takes effect only while the promise is pending |
| Adapter.Invocation.Reject | netlify/functions/api.ts:7 | an exception leaving the executor rejects the promise only while it is pending |
| Adapter.Invocation.Write | netlify/functions/api.ts:44-47 | `write` appends the chunk's bytes whatever the state and returns true; a chunk `Buffer.from` refuses throws and changes nothing |
| Adapter.Invocation.End | netlify/functions/api.ts:49-63 | `end` unless ended or resolved: appends a truthy chunk, sets both flags, and settles with status, headers and the decoded body; a truthy chunk `Buffer.from` refuses sets only `_ended` and throws |
| Adapter.Invocation.Json | netlify/functions/api.ts:65-71 | `json` unless ended or resolved: sets the JSON content type, appends the JSON text and ends; for undefined it throws after setting the header |
| Adapter.Invocation.Status | netlify/functions/api.ts:73-76 | `status` sets the status code, unguarded |
| Adapter.Invocation.SetHeader | netlify/functions/api.ts:78-81 | `setHeader` stores under the lower-cased name, unguarded |
| Adapter.Invocation.Send | netlify/functions/api.ts:83-91 | `send` unless ended or resolved: an object goes to `json`, anything else is appended as its string and ended |
| Adapter.Invocation.Timeout | netlify/functions/api.ts:95-104 | the timer runs once; unless resolved, it sets the flag and settles with 504 and the timeout body |
| Adapter.Invocation.Next | netlify/functions/api.ts:107-115 | the continuation clears the timer; with a truthy error on an unresolved invocation it sets the flag and status 500, and the `json` call that follows changes nothing, so nothing settles (see Findings) |
| Adapter.Invocation.Catch | netlify/functions/api.ts:116-122 | the outer catch resolves with 500 and the error object without consulting the flag; for null or undefined it rejects the promise |
| AdapterLemmas.RunAppend | netlify/functions/api.ts:44-122 | running two sequences of triggers one after the other is running their concatenation |
| AdapterLemmas.SettledStaysSettled | netlify/functions/api.ts:7 | no trigger changes a resolved or rejected promise |
| AdapterLemmas.RunKeepsSettlement | netlify/functions/api.ts:7 | a settled promise stays as it is over any later sequence of triggers |
| AdapterLemmas.SettlesAtMostOnce | netlify/functions/api.ts:50-104 | once a prefix of the triggers has resolved or rejected the promise, every longer prefix leaves it the same |
| AdapterLemmas.EndIsIdempotent | netlify/functions/api.ts:49-51 | a second `end` changes nothing, whatever it is passed |
| AdapterLemmas.StatusBeforeEndDecides | netlify/functions/api.ts:56-75 | the status set before completion is the status settled, unless `end` throws |
| AdapterLemmas.StatusAfterSettlement | netlify/functions/api.ts:73-76 | `status` after settlement changes the field but not the result |
| AdapterLemmas.RunWrites | netlify/functions/api.ts:44-47 | writes append their encodings in call order and change nothing else |
| AdapterLemmas.FlattenEncodeAll | netlify/functions/api.ts:45-56 | concatenating the encoded chunks is encoding the concatenated texts |
| AdapterLemmas.EndSettles | netlify/functions/api.ts:49-63 | `end` on an open response settles with the buffered bytes followed by a truthy last chunk; a truthy chunk `Buffer.from` refuses only marks the response ended |
| AdapterLemmas.WritesThenEnd | netlify/functions/api.ts:44-62 | texts written and then passed to `end` settle as their concatenation, in call order |
| AdapterLemmas.JsonSettles | netlify/functions/api.ts:65-71 | `json` on an open response settles with the JSON content type added and the JSON text after the buffered bytes |
| AdapterLemmas.SendObjectIsJson | netlify/functions/api.ts:83-87 | `send` of null, an array or a plain object is `json` |
| AdapterLemmas.SendPrimitiveIsEnd | netlify/functions/api.ts:87-90 | `send` of any other value settles as `end(String(data))` would |
| AdapterLemmas.TimeoutBodyText | netlify/functions/api.ts:101 | the timeout body is the JSON text `{"error":"Function timeout"}` |
| AdapterLemmas.ArmedStep | netlify/functions/api.ts:44-104 | each trigger other than the continuation keeps the flag set only on a settled promise and the timer armed while the promise is pending |
| AdapterLemmas.ArmedWithoutNext | netlify/functions/api.ts:44-104 | that invariant holds after any sequence in which the app never calls its continuation |
| AdapterLemmas.TimeoutFallback | netlify/functions/api.ts:95-104 | if the promise is still pending and the app never called its continuation, the timer settles with 504, the JSON content type and the timeout body |
| AdapterLemmas.NextErrorDefeatsTimeout | netlify/functions/api.ts:107-113 | as written, after the continuation with an error the firing timer settles nothing, so the promise stays pending |
| AdapterLemmas.EndThrowLeavesTimeout | netlify/functions/api.ts:49-57 | `end` with a truthy chunk `Buffer.from` refuses leaves the response ended, the flag clear and the promise pending; later `end`, `json` and `send` are ignored, and the armed timer answers 504 |
| AdapterLemmas.WriteThrowKeepsState | netlify/functions/api.ts:44-47 | `write` throws exactly for a chunk `Buffer.from` refuses, and then leaves the state unchanged; otherwise it appends the chunk's bytes |
| AdapterLemmas.CatchOutcome | netlify/functions/api.ts:116-122 | on a pending promise the catch rejects for a thrown null or undefined, and otherwise resolves with 500, the default headers and the error object's JSON text |
| AdapterLemmas.RejectedStaysRejected | netlify/functions/api.ts:7 | after a thrown null reaches the catch, no later trigger resolves the promise |
| AdapterLemmas.SetHeaderIgnoresCase | netlify/functions/api.ts:78-81 | header names that differ only in case overwrite one another |
| AdapterLemmas.NextWithoutErrorDisarms | netlify/functions/api.ts:107-109 | the continuation without an error only clears the timer |
| AdapterLemmas.NextErrorNeverSettles | netlify/functions/api.ts:109-113 | as written, an error continuation sets the flag and status 500 but settles nothing, and nothing but the outer catch settles afterwards |
| AdapterLemmas.StuckStaysStuck | netlify/functions/api.ts:109-113 | a state with the flag set, no result and the timer cleared stays so under every trigger but an exception |
| AdapterLemmas.NextErrorSettles | netlify/functions/api.ts:107-114 | for the corrected continuation Adapter.AfterNextCorrected, an error on an open response settles with 500, the JSON content type and the error object |
| AdapterLemmas.DefaultContentTypeSurvives | netlify/functions/api.ts:40 | as written, `setHeader("Content-Type", "text/html")` leaves the default and settles with two content types |
| AdapterLemmas.LowerCaseIdempotent | netlify/functions/api.ts:79 | lower-casing twice is lower-casing once |
| AdapterLemmas.JsonHeaders | netlify/functions/api.ts:65-71 | `json` at most adds `content-type`, and settles with the headers it leaves |
| AdapterLemmas.SendHeaders | netlify/functions/api.ts:83-91 | the same for `send` |
| AdapterLemmas.NextHeaders | netlify/functions/api.ts:107-114 | as written, the continuation changes neither the headers nor the result |
| AdapterLemmas.LowerKeysStep | netlify/functions/api.ts:78-81 | every trigger keeps the header keys lower case |
| AdapterLemmas.LowerKeysUnique | netlify/functions/api.ts:79 | lower-case keys never name one header twice |
| AdapterLemmas.SettledHeaders | netlify/functions/api.ts:56-122 | a trigger settles with the headers it leaves behind or with the fixed default ones |
| AdapterLemmas.HeadersStayCaseUnique | netlify/functions/api.ts:78-81 | lower-case keys in the state and unique names in the result persist over any triggers |
| AdapterLemmas.HeadersCaseUniqueFromStart | netlify/functions/api.ts:40 | from the corrected fresh state Adapter.InitialCorrected, no settled result names a header twice |
| Featured.Badge | client/pages/Index.tsx:18-24 | Bestseller wins over New, New over Sale, and there is no badge only for a product with no flag |
| Featured.ToCard | client/pages/Index.tsx:13-24 | a card copies id, title, price and image and carries the product's badge |
| Featured.FeaturedCards | client/pages/Index.tsx:10-25 | at most four cards: the first min(4, n) highlighted products, in order |
| Featured.Highlights | client/pages/Index.tsx:11 | the filter; specified by Featured.HighlightsMembers and Featured.HighlightsAppend |
| Featured.HighlightsMembers | client/pages/Index.tsx:11 | the filter keeps exactly the highlighted products |
| Featured.HighlightsAppend | client/pages/Index.tsx:11 | the filter distributes over concatenation, so it keeps catalogue order |
| Featured.FeaturedHaveBadges | client/pages/Index.tsx:11-24 | every featured card has a badge |
| Featured.FeaturedIgnoresRest | client/pages/Index.tsx:12 | products after the fourth highlighted one do not change the strip |
| Featured.FeaturedAllWhenFew | client/pages/Index.tsx:10-12 | with at most four highlighted products, every one is featured |
| Shortcut.Window | client/pages/Index.tsx:40-42 | the window is the last min(6, n) characters |
| Shortcut.Press | client/pages/Index.tsx:39-47 | after a key the window is at most six characters; the dialog opens iff the window reads the code, and then the window is emptied |
| Shortcut.ImportShortcut.constructor | client/pages/Index.tsx:35-36 | the listener starts with an empty window and the dialog closed |
| Shortcut.ImportShortcut.HandleKeyDown | client/pages/Index.tsx:38-48 | the keydown handler updates the window and the dialog flag as `Press` says |
| Shortcut.CodeHasNoBorder | client/pages/Index.tsx:35 | no proper prefix of "331548" is also a suffix of it |
| Shortcut.NoOverlap | client/pages/Index.tsx:35 | two occurrences of the code in a text never overlap |
| Shortcut.WindowSuffix | client/pages/Index.tsx:39-42 | the window is always an end of the text typed |
| Shortcut.FiresOnCode | client/pages/Index.tsx:44 | one key at a time, the window reads the code iff the text typed ends with it |
| Shortcut.FiredInvariant | client/pages/Index.tsx:44-47 | after a match the emptied window satisfies the window invariant |
| Shortcut.KeptInvariant | client/pages/Index.tsx:39-42 | a key that does not complete the code keeps the window invariant |
| Shortcut.StepInvariant | client/pages/Index.tsx:39-47 | one key keeps the window invariant and fires exactly on the code |
| Shortcut.TypedInvariant | client/pages/Index.tsx:38-48 | after typing any text one character per key, the invariant holds |
| Shortcut.OpensExactlyOnCode | client/pages/Index.tsx:33-48 | one key at a time, the dialog opens on a keystroke iff everything typed so far ends with "331548" |
| ImportGuard.LeadingBlanks | client/pages/Index.tsx:55 | counts the blank characters that open the text |
| ImportGuard.TrailingBlanks | client/pages/Index.tsx:55 | counts the blank characters that close the text |
| ImportGuard.Trim | client/pages/Index.tsx:55 | `trim` returns the contiguous middle of the text: only blanks on either side, and no blank at either end |
| ImportGuard.TrimEmptyIffBlank | client/pages/Index.tsx:55 | the trimmed text is empty iff every character is blank |
| ImportGuard.ImportDialog.constructor | client/pages/Index.tsx:29-31 | the dialog starts with an empty URL, not importing and no status |
| ImportGuard.ImportDialog.HandleImport | client/pages/Index.tsx:54-67 | a blank URL sets "Please enter a valid URL" and leaves the importing flag alone; any other sets the flag and "Fetching products..." and yields the trimmed URL to post |

## Left out

- The app itself is not part of this model; it appears only through the calls it makes (`Trigger`). This covers `createServer`, the Express routes and middleware, and which calls the app makes.
- Real time is not modelled. The 25-second timer is the trigger `TimerFires`, which may come at any point; clearing the timer is a flag. The promise machinery and the order of the event loop reduce to the order of the triggers.
- `console.error`, `statusMessage` and the request's `on`/`once` hooks are not modelled. They log or feed the request stream and do not affect the settled result.
- Normalizer.Normalize: `JSON.parse` is the parameter `parse`, which returns None where it throws. Its own grammar is not modelled.
- JsonText.Stringify models the values the adapter produces: integers within the safe-integer range instead of floating-point numbers, strings, booleans, null, arrays and plain objects with their members in insertion order. Functions, symbols, `toJSON`, cycles and non-finite numbers are not modelled.
- JsonText.JsValue: an `Error` is represented by a plain object with a `message` member, which serves `err.message`. `JSON.stringify` of a real `Error` gives "{}", because its `message` is not enumerable; that is not captured.
- Strings are sequences of Unicode scalar values. UTF-16 lone surrogates cannot occur, so their replacement by U+FFFD in `Buffer.from` is not modelled.
- Adapter.LowerCase lower-cases only ASCII letters; `toLowerCase` also maps other letters, which header names do not contain.
- Adapter.Invocation: the settled headers are a copy of the map. In the source they are the same object the emulator keeps, so a `setHeader` after settlement would show through; the model does not capture that aliasing.
- Adapter.Chunk: arrays, array-like objects and the JSON form of a Buffer (`{type: "Buffer", data: [...]}`), which `Buffer.from` converts element by element, are not among the modelled chunks.
- Adapter.Invocation.Write: a Buffer chunk is pushed by reference, so a later change to that Buffer by the app would change the body decoded at settlement. `Chunk.Bytes` is a value, and that aliasing is not captured.
- Adapter.Invocation.End: the same holds for a Buffer passed to `end`. The chunk shapes `Adapter.Chunk` leaves out are not modelled either.
- Adapter.Invocation.Reject: the rejection reason (the TypeError) is not kept, only the fact of the rejection.
- Adapter.Invocation.Json, Adapter.Invocation.Write and Adapter.Invocation.End report a throw of `Buffer.from` as the result `threw`. Where the exception then goes depends on the app; a `Throw` trigger stands for it reaching the outer catch.
- Adapter.Invocation.Send: in the source, `send` of a Buffer goes to `json` because a Buffer is an object. Buffers are not among the modelled values.
- The outer catch (`Throw`) may fire at any point of the sequence. In the source it only catches exceptions raised synchronously inside the `try`, so the model allows more orders than can occur.
- ImportGuard.ImportDialog.HandleImport stops at the request. The `fetch`, the response check, the `upsertProduct`/`setStock` writes to local storage, the status messages after the request, the delayed `window.location.reload` and the final reset of `isImporting` are I/O.
- Shortcut: the window is measured in characters, where JavaScript counts UTF-16 code units. This makes no difference for keys in the Basic Multilingual Plane. Registering and removing the keydown listener is not modelled.
- Featured: `getProducts` (the catalogue in local storage) is the parameter `catalog`. Prices are real numbers, not floating point. The JSX that renders the cards is not modelled.
- Normalizer: a structured event body is not passed through as it is. The code sends it through `JSON.stringify` and then `JSON.parse` (netlify/functions/api.ts:12, 24), and the model follows the code (Normalizer.StructuredBodyRoundTrip).

## Findings

| source | as written | input that shows it | evidently intended | confidence | as-written member | corrected member |
|---|---|---|---|---|---|---|
| netlify/functions/api.ts:109-113 | the continuation sets `responseResolved = true` and then calls `expressRes.json`, which returns at once because the flag is set; the timer was already cleared | the app calls `next(new Error("boom"))` before responding | settle with status 500 and `{"error":"Internal Server Error","message":"boom"}` | not executed | AdapterLemmas.NextErrorNeverSettles | AdapterLemmas.NextErrorSettles |
| netlify/functions/api.ts:40 | the default header is keyed `Content-Type`, while `setHeader` stores under the lower-cased name | the app calls `setHeader("Content-Type", "text/html")` and then `end()` | the app's content type replaces the default, so one content-type header is sent | not executed | AdapterLemmas.DefaultContentTypeSurvives | AdapterLemmas.HeadersCaseUniqueFromStart |

The model follows the code as written: Adapter.Initial, Adapter.AfterNext, Adapter.Step and Adapter.Invocation. The corrected definitions sit beside them as Adapter.InitialCorrected and Adapter.AfterNextCorrected, and only the two corrected-member lemmas use them.

=== FILE: adapter.dfy ===
/** The response side of the serverless adapter (netlify/functions/api.ts:15-122):
    the buffering stand-in for an Express response, the `responseResolved` flag that
    arbitrates between the completion sources, the timeout fallback, the `next`
    continuation and the outer catch.

    `State` is the value of everything one invocation keeps (the emulator's fields,
    the chunk buffer, the flag, whether the timer is armed, and what the promise was
    resolved with, or whether it was rejected); the `After...` functions give the state after each operation and
    the class `Invocation` performs the operations in place. `resolve` has promise
    semantics: only its first call takes effect. */
module Adapter {

  import opened Wrappers
  import opened Utf8
  import opened JsonText

  /** The values `Buffer.from` refuses with a TypeError: undefined, null, a boolean,
      a number, or an object that has no `length` and is not the JSON form of a
      Buffer (`type` "Buffer" with an array `data`, which it converts). */
  type Unconvertible = v: JsValue
    | || v.Undefined? || v.Null? || v.Bool? || v.Num?
      || (&& v.Obj?
          && (forall p | p in v.props :: p.0 != "length")
          && !(Lookup(v.props, "type") == Str("Buffer") && Lookup(v.props, "data").Arr?))
    witness Undefined

  /** What the app passes to `write` and `end`: a string, a Buffer, or a value
      `Buffer.from` refuses. */
  datatype Chunk = Text(text: string) | Bytes(bytes: seq<byte>) | Other(value: Unconvertible)

  /** `Buffer.isBuffer(chunk) ? chunk : Buffer.from(chunk)`, which throws for `Other`. */
  function ChunkBytes(c: Chunk): seq<byte>
    requires !c.Other?
  {
    match c
    case Text(t) => Encode(t)
    case Bytes(b) => b
  }

  /** `if (chunk)`: the empty string is falsy, a Buffer (an object) never is. */
  predicate ChunkTruthy(c: Chunk)
  {
    match c
    case Text(t) => t != ""
    case Bytes(_) => true
    case Other(v) => Truthy(v)
  }

  /** The value the promise is resolved with, handed to the host. */
  datatype Settlement = Settlement(statusCode: int, headers: map<string, string>, body: string)

  const JsonMediaType := "application/json"

  /** The header map the response starts with, also used by the timeout and catch results. */
  const DefaultHeaders: map<string, string> := map["Content-Type" := JsonMediaType]

  datatype State = State(
    statusCode: int,
    headers: map<string, string>,
    chunks: seq<seq<byte>>,
    ended: bool,
    resolved: bool,
    timerActive: bool,
    result: Option<Settlement>,
    rejected: bool)

  /** Fresh state of one invocation, with the 25-second timer armed and the default
      header under `Content-Type`. */
  const Initial := State(200, DefaultHeaders, [], false, false, true, None, false)

  /** The fresh state as evidently intended: the default header under the
      lower-cased key `setHeader` uses, so that a later
      `setHeader("Content-Type", ...)` replaces it instead of adding a second entry. */
  const InitialCorrected := Initial.(headers := map["content-type" := JsonMediaType])

  /** `toLowerCase` on the ASCII letters header names are made of. */
  function LowerChar(c: char): char
  {
    if 'A' <= c <= 'Z' then (c as int + 32) as char else c
  }

  function LowerCase(s: string): string
  {
    seq(|s|, i requires 0 <= i < |s| => LowerChar(s[i]))
  }

  /** The name `json` passes to `setHeader` is stored as `content-type`. */
  lemma ContentTypeKey()
    ensures LowerCase("Content-Type") == "content-type"
  {
    var n, l := "Content-Type", "content-type";
    assert LowerCase(n)[..7] == l[..7];
    assert LowerCase(n)[7..] == l[7..];
    assert LowerCase(n) == LowerCase(n)[..7] + LowerCase(n)[7..];
  }

  /** The promise has been neither resolved nor rejected. */
  predicate Pending(s: State)
  {
    s.result.None? && !s.rejected
  }

  /** `resolve(r)`: the first settlement fixes the promise, later calls are ignored. */
  function ResolveWith(s: State, r: Settlement): State
  {
    if Pending(s) then s.(result := Some(r)) else s
  }

  /** An exception leaving the promise executor rejects a promise still pending. */
  function RejectWith(s: State): State
  {
    if Pending(s) then s.(rejected := true) else s
  }

  /** Whether `write(chunk)` throws: `Buffer.from` refuses the value. */
  predicate WriteThrows(chunk: Chunk)
  {
    chunk.Other?
  }

  /** `write(chunk)`: appends, guarded by nothing; a throw leaves everything as it was. */
  function AfterWrite(s: State, chunk: Chunk): State
  {
    if WriteThrows(chunk) then s else s.(chunks := s.chunks + [ChunkBytes(chunk)])
  }

  /** Whether `end(chunk)` throws: a truthy chunk that `Buffer.from` refuses, on a
      response neither ended nor resolved. */
  predicate EndThrows(s: State, last: Option<Chunk>)
  {
    !s.ended && !s.resolved && last.Some? && last.value.Other? && ChunkTruthy(last.value)
  }

  /** `end(chunk?)`: unless ended or resolved, appends a truthy chunk, marks the
      response ended and resolved, and settles with the status, the headers and
      the decoded concatenation of all chunks. A chunk `Buffer.from` refuses throws
      after `_ended` is set and before the flag is, so nothing settles. */
  function AfterEnd(s: State, last: Option<Chunk>): State
  {
    if s.ended || s.resolved then s
    else if EndThrows(s, last) then s.(ended := true)
    else
      var chunks := if last.Some? && ChunkTruthy(last.value) then s.chunks + [ChunkBytes(last.value)] else s.chunks;
      ResolveWith(s.(ended := true, chunks := chunks, resolved := true),
              Settlement(s.statusCode, s.headers, Decode(Flatten(chunks))))
  }

  /** `status(code)`: unguarded; the last call before settlement is the one seen. */
  function AfterStatus(s: State, code: int): State
  {
    s.(statusCode := code)
  }

  /** `setHeader(name, value)`: stores under the lower-cased name; unguarded. */
  function AfterSetHeader(s: State, name: string, value: string): (r: State)
    ensures r.headers.Keys == s.headers.Keys + {LowerCase(name)}
    ensures r.headers[LowerCase(name)] == value
    ensures forall k | k in s.headers && k != LowerCase(name) :: r.headers[k] == s.headers[k]
    ensures r == s.(headers := r.headers)
  {
    s.(headers := s.headers[LowerCase(name) := value])
  }

  /** Whether `json(data)` throws: `JSON.stringify(undefined)` gives undefined, and
      `Buffer.from(undefined)` throws a TypeError after the header was set. */
  predicate JsonThrows(s: State, data: JsValue)
  {
    !s.ended && !s.resolved && data == Undefined
  }

  /** `json(data)`: unless ended or resolved, sets the JSON content type, appends
      the JSON text and ends. */
  function AfterJson(s: State, data: JsValue): State
  {
    if s.ended || s.resolved then s
    else
      var s1 := AfterSetHeader(s, "Content-Type", JsonMediaType);
      match Stringify(data)
      case None => s1
      case Some(text) => AfterEnd(s1.(chunks := s1.chunks + [Encode(text)]), None)
  }

  /** `send(data)`: unless ended or resolved, an object goes to `json`, anything else
      is appended as `String(data)` before `end()`. */
  function AfterSend(s: State, data: JsValue): State
  {
    if s.ended || s.resolved then s
    else if IsObject(data) then AfterJson(s, data)
    else AfterEnd(s.(chunks := s.chunks + [Encode(PrimitiveString(data))]), None)
  }

  /** `{ error: "Function timeout" }` */
  const TimeoutPayload := Obj([("error", Str("Function timeout"))])

  /** The JSON text of TimeoutPayload (AdapterLemmas.TimeoutBodyText). */
  const TimeoutBody := "{\"error\":\"Function timeout\"}"

  /** The timer callback: once it has run, or has been cleared, it cannot run again;
      unless resolved, it settles with 504. */
  function AfterTimeout(s: State): State
  {
    if !s.timerActive then s
    else if s.resolved then s.(timerActive := false)
    else ResolveWith(s.(timerActive := false, resolved := true),
                 Settlement(504, DefaultHeaders, TimeoutBody))
  }

  /** `{ error: "Internal Server Error", message: err.message }`, or None where
      reading `err.message` throws (err is null or undefined). */
  function ErrorPayload(err: JsValue): (r: Option<JsValue>)
    ensures r.None? <==> err.Null? || err.Undefined?
  {
    match Message(err)
    case None => None
    case Some(m) => Some(Obj([("error", Str("Internal Server Error")), ("message", m)]))
  }

  /** The continuation passed to the app: clears the timer; with a truthy error on an
      unresolved invocation it sets the flag and status 500 and then calls `json`,
      which the flag just set turns into a no-op. */
  function AfterNext(s: State, err: JsValue): State
  {
    var s1 := s.(timerActive := false);
    if Truthy(err) && !s1.resolved then AfterJson(s1.(resolved := true, statusCode := 500), ErrorPayload(err).value)
    else s1
  }

  /** The continuation as evidently intended: without setting the flag first, so
      that `json` itself sends the error object and settles. */
  function AfterNextCorrected(s: State, err: JsValue): State
  {
    var s1 := s.(timerActive := false);
    if Truthy(err) && !s1.resolved then AfterJson(s1.(statusCode := 500), ErrorPayload(err).value)
    else s1
  }

  /** The outer catch: resolves with 500 without consulting or setting the flag.
      For a thrown null or undefined, `error.message` throws inside the catch and
      the exception rejects the promise. */
  function AfterCatch(s: State, error: JsValue): State
  {
    match ErrorPayload(error)
    case None => RejectWith(s)
    case Some(payload) => ResolveWith(s, Settlement(500, DefaultHeaders, Stringify(payload).value))
  }

  /** One thing that can happen to an invocation: a call the app makes on the
      response, the timer firing, the app calling its continuation, or an exception
      reaching the outer catch. */
  datatype Trigger =
    | Write(chunk: Chunk)
    | End(last: Option<Chunk>)
    | Json(data: JsValue)
    | Send(data: JsValue)
    | Status(code: int)
    | SetHeader(name: string, value: string)
    | TimerFires
    | Next(err: JsValue)
    | Throw(error: JsValue)

  function Step(s: State, t: Trigger): State
  {
    match t
    case Write(chunk) => AfterWrite(s, chunk)
    case End(last) => AfterEnd(s, last)
    case Json(data) => AfterJson(s, data)
    case Send(data) => AfterSend(s, data)
    case Status(code) => AfterStatus(s, code)
    case SetHeader(name, value) => AfterSetHeader(s, name, value)
    case TimerFires => AfterTimeout(s)
    case Next(err) => AfterNext(s, err)
    case Throw(error) => AfterCatch(s, error)
  }

  /** The state after the triggers happen in the given order. */
  function Run(s: State, ts: seq<Trigger>): State
    decreases |ts|
  {
    if ts == [] then s else Run(Step(s, ts[0]), ts[1..])
  }

  /** One invocation's mutable state: the fields of `expressRes` and the closure's
      `responseChunks`, `responseResolved`, timer and promise. */
  class Invocation {
    var statusCode: int
    var headers: map<string, string>
    var chunks: seq<seq<byte>>
    var ended: bool
    var resolved: bool
    var timerActive: bool
    var result: Option<Settlement>
    var rejected: bool

    function Snapshot(): State
      reads this
    {
      State(statusCode, headers, chunks, ended, resolved, timerActive, result, rejected)
    }

    constructor ()
      ensures Snapshot() == Initial
    {
      statusCode, headers, chunks := 200, DefaultHeaders, [];
      ended, resolved, timerActive, result, rejected := false, false, true, None, false;
    }

    method Resolve(r: Settlement)
      modifies this
      ensures Snapshot() == ResolveWith(old(Snapshot()), r)
    {
      if result.None? && !rejected {
        result := Some(r);
      }
    }

    method Reject()
      modifies this
      ensures Snapshot() == RejectWith(old(Snapshot()))
    {
      if result.None? && !rejected {
        rejected := true;
      }
    }

    /** `write(chunk)`; `threw` reports the TypeError of `Buffer.from`, and
        otherwise `write` returns true. */
    method Write(chunk: Chunk) returns (threw: bool)
      modifies this
      ensures threw == WriteThrows(chunk)
      ensures Snapshot() == AfterWrite(old(Snapshot()), chunk)
    {
      if chunk.Other? {
        return true;
      }
      chunks := chunks + [ChunkBytes(chunk)];
      threw := false;
    }

    method End(last: Option<Chunk>) returns (threw: bool)
      modifies this
      ensures threw == EndThrows(old(Snapshot()), last)
      ensures Snapshot() == AfterEnd(old(Snapshot()), last)
      ensures old(result).Some? ==> result == old(result)
    {
      if ended || resolved {
        return false;
      }
      ended := true;
      if last.Some? && ChunkTruthy(last.value) {
        if last.value.Other? {
          return true;
        }
        chunks := chunks + [ChunkBytes(last.value)];
      }
      var body := Decode(Flatten(chunks));
      resolved := true;
      Resolve(Settlement(statusCode, headers, body));
      threw := false;
    }

    method Json(data: JsValue) returns (threw: bool)
      modifies this
      ensures threw == JsonThrows(old(Snapshot()), data)
      ensures Snapshot() == AfterJson(old(Snapshot()), data)
      ensures old(result).Some? ==> result == old(result)
    {
      if ended || resolved {
        return false;
      }
      SetHeader("Content-Type", JsonMediaType);
      var text := Stringify(data);
      if text.None? {
        return true;
      }
      chunks := chunks + [Encode(text.value)];
      var _ := End(None);
      threw := false;
    }

    method Status(code: int)
      modifies this
      ensures Snapshot() == AfterStatus(old(Snapshot()), code)
    {
      statusCode := code;
    }

    method SetHeader(name: string, value: string)
      modifies this
      ensures Snapshot() == AfterSetHeader(old(Snapshot()), name, value)
    {
      headers := headers[LowerCase(name) := value];
    }

    method Send(data: JsValue)
      modifies this
      ensures Snapshot() == AfterSend(old(Snapshot()), data)
      ensures old(result).Some? ==> result == old(result)
    {
      if ended || resolved {
        return;
      }
      if IsObject(data) {
        var _ := Json(data);
      } else {
        chunks := chunks + [Encode(PrimitiveString(data))];
        var _ := End(None);
      }
    }

    /** The timer callback; it runs only while the timer is armed. */
    method Timeout()
      requires timerActive
      modifies this
      ensures Snapshot() == AfterTimeout(old(Snapshot()))
      ensures old(result).Some? ==> result == old(result)
    {
      timerActive := false;
      if !resolved {
        resolved := true;
        Resolve(Settlement(504, DefaultHeaders, TimeoutBody));
      }
    }

    method Next(err: JsValue)
      modifies this
      ensures Snapshot() == AfterNext(old(Snapshot()), err)
      ensures old(result).Some? ==> result == old(result)
    {
      timerActive := false;
      if Truthy(err) && !resolved {
        resolved := true;
        statusCode := 500;
        var _ := Json(ErrorPayload(err).value);
      }
    }

    method Catch(error: JsValue)
      modifies this
      ensures Snapshot() == AfterCatch(old(Snapshot()), error)
      ensures old(result).Some? ==> result == old(result)
    {
      var payload := ErrorPayload(error);
      if payload.None? {
        Reject();
      } else {
        Resolve(Settlement(500, DefaultHeaders, Stringify(payload.value).value));
      }
    }
  }
}

=== FILE: adapter_lemmas.dfy ===
/** What the adapter guarantees, and where it falls short, over every order in
    which the completion sources can fire. */
module AdapterLemmas {

  import opened Wrappers
  import opened Utf8
  import opened JsonText
  import opened Adapter

  lemma {:induction false} RunAppend(s: State, a: seq<Trigger>, b: seq<Trigger>)
    decreases a
    ensures Run(s, a + b) == Run(Run(s, a), b)
  {
    if a == [] {
      assert a + b == b;
    } else {
      assert (a + b)[1..] == a[1..] + b;
      RunAppend(Step(s, a[0]), a[1..], b);
    }
  }

  /** No trigger changes a settled promise: neither its value nor a rejection. */
  lemma SettledStaysSettled(s: State, t: Trigger)
    requires !Pending(s)
    ensures Step(s, t).result == s.result && Step(s, t).rejected == s.rejected
  {
  }

  /** Once settled, the promise stays as it is over any further triggers. */
  lemma {:induction false} RunKeepsSettlement(s: State, ts: seq<Trigger>)
    decreases ts
    requires !Pending(s)
    ensures Run(s, ts).result == s.result && Run(s, ts).rejected == s.rejected
  {
    if ts != [] {
      SettledStaysSettled(s, ts[0]);
      RunKeepsSettlement(Step(s, ts[0]), ts[1..]);
    }
  }

  /** The promise leaves the pending state at most once: once a prefix of the
      triggers has resolved or rejected it, every longer prefix leaves it the same. */
  lemma SettlesAtMostOnce(s: State, ts: seq<Trigger>, i: nat, j: nat)
    requires i <= j <= |ts|
    requires !Pending(Run(s, ts[..i]))
    ensures Run(s, ts[..j]).result == Run(s, ts[..i]).result
    ensures Run(s, ts[..j]).rejected == Run(s, ts[..i]).rejected
  {
    assert ts[..j] == ts[..i] + ts[i..j];
    RunAppend(s, ts[..i], ts[i..j]);
    RunKeepsSettlement(Run(s, ts[..i]), ts[i..j]);
  }

  /** A second `end` changes nothing, whatever it is passed. */
  lemma EndIsIdempotent(s: State, first: Option<Chunk>, second: Option<Chunk>)
    ensures AfterEnd(AfterEnd(s, first), second) == AfterEnd(s, first)
  {
  }

  /** `status(code)` before completion decides the settled status; after
      completion it still changes the field but not the result. */
  lemma StatusBeforeEndDecides(s: State, code: int, last: Option<Chunk>)
    requires !s.ended && !s.resolved && Pending(s)
    ensures !EndThrows(s, last) ==> AfterEnd(AfterStatus(s, code), last).result.Some?
    ensures !EndThrows(s, last) ==> AfterEnd(AfterStatus(s, code), last).result.value.statusCode == code
  {
  }

  lemma StatusAfterSettlement(s: State, code: int)
    requires s.result.Some?
    ensures AfterStatus(s, code).statusCode == code && AfterStatus(s, code).result == s.result
  {
  }

  /** The app writing each text in turn. */
  function Writes(texts: seq<string>): (ts: seq<Trigger>)
    ensures |ts| == |texts|
  {
    if texts == [] then [] else [Write(Text(texts[0]))] + Writes(texts[1..])
  }

  function EncodeAll(texts: seq<string>): seq<seq<byte>>
  {
    if texts == [] then [] else [Encode(texts[0])] + EncodeAll(texts[1..])
  }

  lemma {:induction false} RunWrites(s: State, texts: seq<string>)
    decreases texts
    ensures Run(s, Writes(texts)) == s.(chunks := s.chunks + EncodeAll(texts))
  {
    if texts == [] {
      assert s.chunks + [] == s.chunks;
    } else {
      RunWrites(AfterWrite(s, Text(texts[0])), texts[1..]);
      assert s.chunks + [Encode(texts[0])] + EncodeAll(texts[1..]) == s.chunks + EncodeAll(texts);
    }
  }

  lemma {:induction false} FlattenEncodeAll(texts: seq<string>)
    ensures Flatten(EncodeAll(texts)) == Encode(Concat(texts))
  {
    if texts != [] {
      FlattenEncodeAll(texts[1..]);
      EncodeAppend(texts[0], Concat(texts[1..]));
    }
  }

  /** `end(last)` on an open response settles with the current status and headers
      and the buffered bytes followed by `last` when it is truthy; a truthy `last`
      that `Buffer.from` refuses only marks the response ended. */
  lemma EndSettles(s: State, last: Option<Chunk>)
    requires !s.ended && !s.resolved && Pending(s)
    ensures EndThrows(s, last) ==> AfterEnd(s, last) == s.(ended := true)
    ensures !EndThrows(s, last) ==>
      AfterEnd(s, last).result
        == Some(Settlement(s.statusCode, s.headers,
                           Decode(Flatten(s.chunks) + if last.Some? && ChunkTruthy(last.value) then ChunkBytes(last.value) else [])))
  {
    if EndThrows(s, last) {
    } else if last.Some? && ChunkTruthy(last.value) {
      var bytes := ChunkBytes(last.value);
      FlattenAppend(s.chunks, [bytes]);
      assert Flatten([bytes]) == bytes + Flatten([]);
      assert Flatten(s.chunks + [bytes]) == Flatten(s.chunks) + bytes;
    } else {
      assert Flatten(s.chunks) + [] == Flatten(s.chunks);
    }
  }

  /** Texts written one after another and then passed to `end` settle as one body:
      their concatenation in call order. */
  lemma WritesThenEnd(s: State, texts: seq<string>, last: string)
    requires !s.ended && !s.resolved && Pending(s) && s.chunks == []
    ensures Run(s, Writes(texts) + [End(Some(Text(last)))]).result
         == Some(Settlement(s.statusCode, s.headers, Concat(texts) + last))
  {
    RunAppend(s, Writes(texts), [End(Some(Text(last)))]);
    RunWrites(s, texts);
    var w := s.(chunks := EncodeAll(texts));
    assert s.chunks + EncodeAll(texts) == EncodeAll(texts);
    assert Run(w, [End(Some(Text(last)))]) == AfterEnd(w, Some(Text(last)));
    EndSettles(w, Some(Text(last)));
    FlattenEncodeAll(texts);
    EncodeAppend(Concat(texts), last);
    if last == "" {
      assert Encode(last) == [];
    }
    RoundTrip(Concat(texts) + last);
  }

  /** `send` of an object (null, an array or a plain object) is exactly `json`. */
  lemma SendObjectIsJson(s: State, data: JsValue)
    requires IsObject(data)
    ensures AfterSend(s, data) == AfterJson(s, data)
  {
  }

  /** `send` of anything else settles as `end(String(data))` would. */
  lemma SendPrimitiveIsEnd(s: State, data: JsValue)
    requires !IsObject(data)
    ensures AfterSend(s, data).result == AfterEnd(s, Some(Text(PrimitiveString(data)))).result
  {
    var text := PrimitiveString(data);
    if !s.ended && !s.resolved && text == "" {
      assert Encode(text) == [];
      FlattenAppend(s.chunks, [[]]);
      assert Flatten([[]]) == [] + Flatten([]);
      assert Flatten(s.chunks + [Encode(text)]) == Flatten(s.chunks);
    }
  }

  /** The timeout's body is the JSON text `{"error":"Function timeout"}`. */
  lemma TimeoutBodyText()
    ensures Stringify(TimeoutPayload) == Some(TimeoutBody)
  {
    TimeoutBodyOf("error", "Function timeout");
  }

  // The parameters below are pinned to literals by their requires, which keeps the
  // solver from unfolding the recursive definitions on literal strings.
  lemma TimeoutBodyOf(k: string, m: string)
    requires k == "error" && m == "Function timeout"
    ensures Stringify(Obj([(k, Str(m))])) == Some(TimeoutBody)
  {
    TimeoutPartsPlain(k, m);
    StringifyPlainMember(k, m);
    TimeoutBodyParts(k, m);
  }

  lemma TimeoutPartsPlain(k: string, m: string)
    requires k == "error" && m == "Function timeout"
    ensures forall i | 0 <= i < |k| :: Plain(k[i])
    ensures forall i | 0 <= i < |m| :: Plain(m[i])
  {
  }

  lemma TimeoutBodyParts(k: string, m: string)
    requires k == "error" && m == "Function timeout"
    ensures "{\"" + k + "\":\"" + m + "\"}" == TimeoutBody
  {
  }

  /** What keeps the fallback possible: the flag is set only on a settled promise,
      and the timer stays armed while the promise is pending. (An ended response
      need not be resolved: `end` with a chunk `Buffer.from` refuses sets `_ended`
      and throws before the flag.) */
  predicate Armed(s: State)
  {
    (s.resolved ==> !Pending(s)) && (s.timerActive || !Pending(s))
  }

  /** The app does not call its continuation. The continuation clears the timer,
      and with an error it also sets the flag without settling
      (NextErrorNeverSettles), so either call can leave nothing armed. */
  predicate NoNext(ts: seq<Trigger>)
  {
    forall i | 0 <= i < |ts| :: !ts[i].Next?
  }

  lemma ArmedJson(s: State, data: JsValue)
    requires Armed(s)
    ensures Armed(AfterJson(s, data))
  {
  }

  lemma ArmedSend(s: State, data: JsValue)
    requires Armed(s)
    ensures Armed(AfterSend(s, data))
  {
    if !s.ended && !s.resolved && IsObject(data) {
      ArmedJson(s, data);
    }
  }

  lemma ArmedStep(s: State, t: Trigger)
    requires Armed(s) && !t.Next?
    ensures Armed(Step(s, t))
  {
    match t
    case Json(data) => ArmedJson(s, data);
    case Send(data) => ArmedSend(s, data);
    case _ =>
  }

  lemma {:induction false} ArmedWithoutNext(s: State, ts: seq<Trigger>)
    decreases ts
    requires Armed(s) && NoNext(ts)
    ensures Armed(Run(s, ts))
  {
    if ts != [] {
      ArmedStep(s, ts[0]);
      assert NoNext(ts[1..]) by {
        forall i | 0 <= i < |ts[1..]| ensures !ts[1..][i].Next? {
          assert ts[1..][i] == ts[i + 1];
        }
      }
      ArmedWithoutNext(Step(s, ts[0]), ts[1..]);
    }
  }

  /** If nothing has settled and the app has not called its continuation, the timer
      fires and settles with 504, the JSON content type and the timeout body. */
  lemma TimeoutFallback(ts: seq<Trigger>)
    requires NoNext(ts) && Pending(Run(Initial, ts))
    ensures Run(Initial, ts + [TimerFires]).result == Some(Settlement(504, DefaultHeaders, TimeoutBody))
  {
    ArmedWithoutNext(Initial, ts);
    RunAppend(Initial, ts, [TimerFires]);
    TimeoutBodyText();
  }

  /** As written, one call of the continuation with an error defeats the fallback:
      the timer that then fires settles nothing. */
  lemma NextErrorDefeatsTimeout(err: JsValue)
    requires Truthy(err)
    ensures Run(Initial, [Next(err), TimerFires]).result.None?
  {
    NextErrorNeverSettles(Initial, err, [TimerFires]);
    assert Run(Initial, [Next(err), TimerFires]) == Run(AfterNext(Initial, err), [TimerFires]);
  }

  /** As written, `end` with a truthy chunk `Buffer.from` refuses marks the response
      ended but leaves the flag clear and the promise pending: every later `end`,
      `json` or `send` is ignored, and the armed timer still answers with 504. */
  lemma EndThrowLeavesTimeout(s: State, v: Unconvertible, last: Option<Chunk>, data: JsValue)
    requires Truthy(v) && !s.ended && !s.resolved && Pending(s)
    ensures var e := AfterEnd(s, Some(Other(v)));
      e.ended && !e.resolved && Pending(e) && e.timerActive == s.timerActive
    ensures var e := AfterEnd(s, Some(Other(v)));
      AfterEnd(e, last) == e && AfterJson(e, data) == e && AfterSend(e, data) == e
    ensures s.timerActive ==>
      AfterTimeout(AfterEnd(s, Some(Other(v)))).result == Some(Settlement(504, DefaultHeaders, TimeoutBody))
  {
  }

  /** `write` of a value `Buffer.from` refuses throws before anything is appended. */
  lemma WriteThrowKeepsState(s: State, chunk: Chunk)
    ensures WriteThrows(chunk) <==> chunk.Other?
    ensures WriteThrows(chunk) ==> AfterWrite(s, chunk) == s
    ensures !WriteThrows(chunk) ==> AfterWrite(s, chunk).chunks == s.chunks + [ChunkBytes(chunk)]
  {
  }

  /** The outer catch on a pending promise: a thrown null or undefined makes
      `error.message` throw, which rejects the promise; any other value resolves it
      with 500, the default headers and the JSON text of the error object. */
  lemma CatchOutcome(s: State, error: JsValue)
    requires Pending(s)
    ensures error.Null? || error.Undefined? ==> AfterCatch(s, error) == s.(rejected := true)
    ensures !(error.Null? || error.Undefined?) ==>
      && ErrorPayload(error).Some?
      && AfterCatch(s, error).result
         == Some(Settlement(500, DefaultHeaders, Stringify(ErrorPayload(error).value).value))
      && !AfterCatch(s, error).rejected
  {
  }

  /** Once rejected, the promise is never resolved: the timer and every completion
      call that follows leave it rejected without a value. */
  lemma RejectedStaysRejected(ts: seq<Trigger>)
    ensures Run(Initial, [Throw(Null)] + ts).rejected
    ensures Run(Initial, [Throw(Null)] + ts).result.None?
  {
    var r := AfterCatch(Initial, Null);
    assert r == Initial.(rejected := true);
    assert Run(Initial, [Throw(Null)] + ts) == Run(r, ts) by {
      assert ([Throw(Null)] + ts)[1..] == ts;
    }
    RunKeepsSettlement(r, ts);
  }

  /** `setHeader` keys on the lower-cased name: names differing only in case
      overwrite one another. */
  lemma SetHeaderIgnoresCase(s: State, n1: string, v1: string, n2: string, v2: string)
    requires LowerCase(n1) == LowerCase(n2)
    ensures AfterSetHeader(AfterSetHeader(s, n1, v1), n2, v2) == AfterSetHeader(s, n2, v2)
  {
  }

  /** The continuation without an error only disarms the timer: from then on nothing
      but the app's own completion calls (or the outer catch) can settle. */
  lemma NextWithoutErrorDisarms(s: State, err: JsValue)
    requires !Truthy(err)
    ensures AfterNext(s, err) == s.(timerActive := false)
  {
  }

  /** As written, the error continuation sets the flag before calling `json`, so the
      500 is never produced, and with the timer cleared no later trigger short of an
      exception reaching the outer catch settles the invocation. */
  lemma NextErrorNeverSettles(s: State, err: JsValue, ts: seq<Trigger>)
    requires !s.resolved && s.result.None? && Truthy(err)
    requires forall i | 0 <= i < |ts| :: !ts[i].Throw?
    ensures AfterNext(s, err).resolved && AfterNext(s, err).statusCode == 500
    ensures Run(AfterNext(s, err), ts).result.None?
  {
    StuckStaysStuck(AfterNext(s, err), ts);
  }

  /** A state whose flag is set without a result and whose timer is cleared. */
  predicate Stuck(s: State)
  {
    s.resolved && !s.timerActive && s.result.None?
  }

  lemma {:induction false} StuckStaysStuck(s: State, ts: seq<Trigger>)
    decreases ts
    requires Stuck(s)
    requires forall i | 0 <= i < |ts| :: !ts[i].Throw?
    ensures Stuck(Run(s, ts))
  {
    if ts != [] {
      assert !ts[0].Throw?;
      assert Stuck(Step(s, ts[0]));
      StuckStaysStuck(Step(s, ts[0]), ts[1..]);
    }
  }

  /** `json(data)` on an open response settles with the current status, the
      headers plus `content-type: application/json`, and the buffered bytes followed
      by the JSON text of `data`. */
  lemma JsonSettles(s: State, data: JsValue)
    requires !s.ended && !s.resolved && Pending(s) && data != Undefined
    ensures AfterJson(s, data).result
         == Some(Settlement(s.statusCode, s.headers["content-type" := JsonMediaType],
                            Decode(Flatten(s.chunks) + Encode(Stringify(data).value))))
  {
    ContentTypeKey();
    var text := Stringify(data).value;
    var s1 := AfterSetHeader(s, "Content-Type", JsonMediaType);
    assert s1.headers == s.headers["content-type" := JsonMediaType];
    var s2 := s1.(chunks := s1.chunks + [Encode(text)]);
    assert AfterJson(s, data) == AfterEnd(s2, None);
    FlattenAppend(s.chunks, [Encode(text)]);
    assert Flatten([Encode(text)]) == Encode(text) + Flatten([]);
    assert Flatten(s2.chunks) == Flatten(s.chunks) + Encode(text);
  }

  /** With the correction, an error reported on an open response settles with 500,
      the JSON content type and the error object after whatever was written. */
  lemma NextErrorSettles(s: State, err: JsValue)
    requires Truthy(err) && !s.ended && !s.resolved && Pending(s)
    ensures ErrorPayload(err).Some?
    ensures AfterNextCorrected(s, err).result
         == Some(Settlement(500, s.headers["content-type" := JsonMediaType],
                            Decode(Flatten(s.chunks) + Encode(Stringify(ErrorPayload(err).value).value))))
    ensures !AfterNextCorrected(s, err).timerActive
  {
    JsonSettles(s.(timerActive := false, statusCode := 500), ErrorPayload(err).value);
  }

  /** As written, a header set under its usual spelling does not replace the default
      one: the settled headers carry two content types. */
  lemma DefaultContentTypeSurvives()
    ensures Run(Initial, [SetHeader("Content-Type", "text/html"), End(None)]).result.Some?
    ensures Run(Initial, [SetHeader("Content-Type", "text/html"), End(None)]).result.value.headers
         == map["Content-Type" := "application/json", "content-type" := "text/html"]
  {
    ContentTypeKey();
  }

  lemma {:induction false} LowerCaseIdempotent(s: string)
    ensures LowerCase(LowerCase(s)) == LowerCase(s)
  {
    if s != [] {
      LowerCaseIdempotent(s[1..]);
    }
  }

  /** No two keys of the map name the same header. */
  predicate CaseUnique(h: map<string, string>)
  {
    forall a, b | a in h && b in h && LowerCase(a) == LowerCase(b) :: a == b
  }

  predicate LowerKeys(h: map<string, string>)
  {
    forall k | k in h :: LowerCase(k) == k
  }

  /** `json` at most adds the JSON content type, under its lower-cased key, and
      settles, if at all, with the headers it leaves. */
  lemma JsonHeaders(s: State, data: JsValue)
    ensures AfterJson(s, data).headers == s.headers
         || AfterJson(s, data).headers == s.headers["content-type" := JsonMediaType]
    ensures AfterJson(s, data).result == s.result
         || AfterJson(s, data).result.value.headers == AfterJson(s, data).headers
  {
    ContentTypeKey();
  }

  lemma SendHeaders(s: State, data: JsValue)
    ensures AfterSend(s, data).headers == s.headers
         || AfterSend(s, data).headers == s.headers["content-type" := JsonMediaType]
    ensures AfterSend(s, data).result == s.result
         || AfterSend(s, data).result.value.headers == AfterSend(s, data).headers
  {
    JsonHeaders(s, data);
  }

  /** As written, the continuation changes neither the headers nor the result. */
  lemma NextHeaders(s: State, err: JsValue)
    ensures AfterNext(s, err).headers == s.headers
    ensures AfterNext(s, err).result == s.result
  {
  }

  lemma LowerKeysStep(s: State, t: Trigger)
    requires LowerKeys(s.headers)
    ensures LowerKeys(Step(s, t).headers)
  {
    assert LowerCase("content-type") == "content-type";
    match t
    case SetHeader(name, _) => LowerCaseIdempotent(name);
    case Json(data) => JsonHeaders(s, data);
    case Send(data) => SendHeaders(s, data);
    case Next(err) => NextHeaders(s, err);
    case _ =>
  }

  /** Keys that are already lower case cannot collide. */
  lemma LowerKeysUnique(h: map<string, string>)
    requires LowerKeys(h)
    ensures CaseUnique(h)
  {
    forall a, b | a in h && b in h && LowerCase(a) == LowerCase(b)
      ensures a == b
    {
      assert LowerCase(a) == a && LowerCase(b) == b;
    }
  }

  /** A trigger either leaves the result alone or settles it with the headers of
      the state it leaves behind or with the default ones. */
  lemma SettledHeaders(s: State, t: Trigger)
    ensures var s' := Step(s, t);
      s'.result == s.result || s'.result.value.headers == s'.headers || s'.result.value.headers == DefaultHeaders
  {
    match t
    case Json(data) => JsonHeaders(s, data);
    case Send(data) => SendHeaders(s, data);
    case Next(err) => NextHeaders(s, err);
    case _ =>
  }

  predicate HeadersCaseUnique(s: State)
  {
    LowerKeys(s.headers) && (s.result.Some? ==> CaseUnique(s.result.value.headers))
  }

  lemma {:induction false} HeadersStayCaseUnique(s: State, ts: seq<Trigger>)
    decreases ts
    requires HeadersCaseUnique(s)
    ensures HeadersCaseUnique(Run(s, ts))
  {
    if ts != [] {
      var s1 := Step(s, ts[0]);
      LowerKeysStep(s, ts[0]);
      LowerKeysUnique(s1.headers);
      SettledHeaders(s, ts[0]);
      assert CaseUnique(DefaultHeaders);
      HeadersStayCaseUnique(s1, ts[1..]);
    }
  }

  /** With the default header keyed as `setHeader` keys it, the header map never
      holds two spellings of one name, and neither does any settled result, whatever
      the app does afterwards. */
  lemma HeadersCaseUniqueFromStart(ts: seq<Trigger>)
    ensures LowerKeys(Run(InitialCorrected, ts).headers)
    ensures Run(InitialCorrected, ts).result.Some? ==> CaseUnique(Run(InitialCorrected, ts).result.value.headers)
  {
    assert LowerCase("content-type") == "content-type";
    HeadersStayCaseUnique(InitialCorrected, ts);
  }
}

=== FILE: featured.dfy ===
/** The home page's featured strip (client/pages/Index.tsx:10-25): the catalogue
    filtered to highlighted products, the first four kept, each turned into a card
    whose badge follows the precedence Bestseller, New, Sale. */
module Featured {

  import opened Wrappers

  /** The fields of a catalogue product that the strip reads. */
  datatype Product = Product(
    id: string,
    title: string,
    price: real,
    image: string,
    isBestSeller: bool,
    isNew: bool,
    onSale: bool)

  /** What the strip renders for one product. */
  datatype Card = Card(id: string, title: string, price: real, image: string, badge: Option<string>)

  /** How many cards the strip shows at most. */
  const Slots := 4

  /** The filter's test: at least one of the three flags. */
  predicate Highlighted(p: Product)
  {
    p.isBestSeller || p.isNew || p.onSale
  }

  /** The badge: Bestseller wins over New, which wins over Sale; none without a flag. */
  function Badge(p: Product): (b: Option<string>)
    ensures b == Some("Bestseller") <==> p.isBestSeller
    ensures b == Some("New") <==> !p.isBestSeller && p.isNew
    ensures b == Some("Sale") <==> !p.isBestSeller && !p.isNew && p.onSale
    ensures b.None? <==> !Highlighted(p)
  {
    if p.isBestSeller then Some("Bestseller")
    else if p.isNew then Some("New")
    else if p.onSale then Some("Sale")
    else None
  }

  /** The card of one product: the four display fields copied, and its badge. */
  function ToCard(p: Product): (c: Card)
    ensures c.id == p.id && c.title == p.title && c.price == p.price && c.image == p.image
    ensures c.badge == Badge(p)
  {
    Card(p.id, p.title, p.price, p.image, Badge(p))
  }

  /** `.filter(...)`: the highlighted products, in catalogue order. */
  function Highlights(catalog: seq<Product>): seq<Product>
  {
    if catalog == [] then []
    else if Highlighted(catalog[0]) then [catalog[0]] + Highlights(catalog[1..])
    else Highlights(catalog[1..])
  }

  /** `.slice(0, 4).map(...)`: the cards of the first four highlighted products. */
  function FeaturedCards(catalog: seq<Product>): (r: seq<Card>)
    ensures |r| <= Slots
    ensures |r| == if |Highlights(catalog)| < Slots then |Highlights(catalog)| else Slots
    ensures forall i | 0 <= i < |r| :: r[i] == ToCard(Highlights(catalog)[i])
  {
    var kept := Highlights(catalog);
    var n := if |kept| < Slots then |kept| else Slots;
    seq(n, i requires 0 <= i < n => ToCard(kept[i]))
  }

  /** The filter keeps exactly the highlighted products. */
  lemma {:induction false} HighlightsMembers(catalog: seq<Product>)
    ensures forall p :: p in Highlights(catalog) <==> p in catalog && Highlighted(p)
  {
    if catalog != [] {
      HighlightsMembers(catalog[1..]);
      assert catalog == [catalog[0]] + catalog[1..];
    }
  }

  /** The filter works product by product, so it keeps catalogue order: filtering a
      catalogue split in two gives the filtered halves one after the other. */
  lemma {:induction false} HighlightsAppend(a: seq<Product>, b: seq<Product>)
    ensures Highlights(a + b) == Highlights(a) + Highlights(b)
  {
    if a == [] {
      assert a + b == b;
    } else {
      assert (a + b)[1..] == a[1..] + b;
      HighlightsAppend(a[1..], b);
    }
  }

  /** Every featured card carries a badge. */
  lemma FeaturedHaveBadges(catalog: seq<Product>)
    ensures forall c | c in FeaturedCards(catalog) :: c.badge.Some?
  {
    var kept := Highlights(catalog);
    HighlightsMembers(catalog);
    forall c | c in FeaturedCards(catalog)
      ensures c.badge.Some?
    {
      var i :| 0 <= i < |FeaturedCards(catalog)| && FeaturedCards(catalog)[i] == c;
      assert kept[i] in kept;
    }
  }

  /** Products after the fourth highlighted one do not change the strip. */
  lemma FeaturedIgnoresRest(catalog: seq<Product>, k: nat)
    requires k <= |catalog| && |Highlights(catalog[..k])| >= Slots
    ensures FeaturedCards(catalog) == FeaturedCards(catalog[..k])
  {
    assert catalog == catalog[..k] + catalog[k..];
    HighlightsAppend(catalog[..k], catalog[k..]);
  }

  /** With four or fewer highlighted products, each of them is featured, in order. */
  lemma FeaturedAllWhenFew(catalog: seq<Product>)
    requires |Highlights(catalog)| <= Slots
    ensures |FeaturedCards(catalog)| == |Highlights(catalog)|
    ensures forall p | p in catalog && Highlighted(p) :: ToCard(p) in FeaturedCards(catalog)
  {
    HighlightsMembers(catalog);
    var kept := Highlights(catalog);
    forall p | p in catalog && Highlighted(p)
      ensures ToCard(p) in FeaturedCards(catalog)
    {
      var i :| 0 <= i < |kept| && kept[i] == p;
      assert FeaturedCards(catalog)[i] == ToCard(p);
    }
  }
}

=== FILE: import_guard.dfy ===
/** The start of the import dialog's submit handler (client/pages/Index.tsx:54-68):
    a URL that is empty once trimmed is refused with a message; any other URL puts
    the dialog into its importing state and is sent, trimmed, to the import
    endpoint. */
module ImportGuard {

  import opened Wrappers

  /** What `String.prototype.trim` strips: the ECMAScript WhiteSpace code points
      (tab, vertical tab, form feed, space, no-break space, the byte order mark and
      the other space separators) and the LineTerminator code points. */
  predicate IsBlank(c: char)
  {
    || c == '\t' || c == '\U{000B}' || c == '\U{000C}' || c == ' ' || c == '\U{00A0}' || c == '\U{FEFF}'
    || c == '\U{1680}' || ('\U{2000}' <= c <= '\U{200A}') || c == '\U{202F}' || c == '\U{205F}' || c == '\U{3000}'
    || c == '\n' || c == '\r' || c == '\U{2028}' || c == '\U{2029}'
  }

  /** How many blank characters open the text. */
  function LeadingBlanks(s: string): (k: nat)
    ensures k <= |s|
    ensures forall i | 0 <= i < k :: IsBlank(s[i])
    ensures k < |s| ==> !IsBlank(s[k])
  {
    if s == [] || !IsBlank(s[0]) then 0 else 1 + LeadingBlanks(s[1..])
  }

  /** How many blank characters close the text. */
  function TrailingBlanks(s: string): (k: nat)
    ensures k <= |s|
    ensures forall i | |s| - k <= i < |s| :: IsBlank(s[i])
    ensures k < |s| ==> !IsBlank(s[|s| - k - 1])
  {
    if s == [] || !IsBlank(s[|s| - 1]) then 0 else 1 + TrailingBlanks(s[..|s| - 1])
  }

  /** `s.trim()`: the text between the leading and the trailing blanks. */
  function Trim(s: string): (r: string)
    ensures LeadingBlanks(s) + |r| <= |s| && r == s[LeadingBlanks(s)..LeadingBlanks(s) + |r|]
    ensures forall i | LeadingBlanks(s) + |r| <= i < |s| :: IsBlank(s[i])
    ensures r != [] ==> !IsBlank(r[0]) && !IsBlank(r[|r| - 1])
  {
    var t := s[LeadingBlanks(s)..];
    t[..|t| - TrailingBlanks(t)]
  }

  /** The guard `!importUrl.trim()` holds exactly when every character is blank. */
  lemma TrimEmptyIffBlank(s: string)
    ensures Trim(s) == [] <==> forall i | 0 <= i < |s| :: IsBlank(s[i])
  {
    var k := LeadingBlanks(s);
    if Trim(s) != [] {
      assert !IsBlank(s[k]) by {
        assert Trim(s)[0] == s[k];
      }
    }
  }

  const InvalidUrlMessage := "Please enter a valid URL"
  const FetchingMessage := "Fetching products..."

  /** The dialog's state that the handler touches. */
  class ImportDialog {
    var importUrl: string
    var isImporting: bool
    var importStatus: string

    constructor ()
      ensures importUrl == "" && !isImporting && importStatus == ""
    {
      importUrl, isImporting, importStatus := "", false, "";
    }

    /** `handleImport()` up to the request: the URL to post, or None when refused. */
    method HandleImport() returns (url: Option<string>)
      modifies this
      ensures url.None? <==> forall i | 0 <= i < |old(importUrl)| :: IsBlank(old(importUrl)[i])
      ensures url.None? ==> importStatus == InvalidUrlMessage && isImporting == old(isImporting)
      ensures url.Some? ==> url.value == Trim(old(importUrl)) && isImporting && importStatus == FetchingMessage
      ensures importUrl == old(importUrl)
    {
      TrimEmptyIffBlank(importUrl);
      if Trim(importUrl) == "" {
        importStatus := InvalidUrlMessage;
        return None;
      }
      isImporting := true;
      importStatus := FetchingMessage;
      url := Some(Trim(importUrl));
    }
  }
}

=== FILE: json_text.dfy ===
/** The JavaScript values the adapter handles, their truthiness and `typeof`,
    `String(v)` for primitives, and `JSON.stringify` as section 25.5.2 of
    ECMA-262 defines it for these values. */
module JsonText {

  import opened Wrappers

  /** Integers a JavaScript number represents exactly (up to Number.MAX_SAFE_INTEGER). */
  type SafeInt = n: int | -0x1F_FFFF_FFFF_FFFF <= n <= 0x1F_FFFF_FFFF_FFFF

  /** A JavaScript value. An object is given by its own enumerable properties in
      enumeration order, whose names are distinct as in every JavaScript object. An `Error` is represented by an object with a `message`
      member, which serves `err.message`; that `JSON.stringify` of a real `Error`
      gives "{}" (its `message` is not enumerable) is not captured. */
  datatype JsValue =
    | Undefined
    | Null
    | Bool(b: bool)
    | Num(n: SafeInt)
    | Str(s: string)
    | Arr(items: seq<JsValue>)
    | Obj(props: seq<(string, JsValue)>)

  /** The values `if (v)` and `v || d` treat as true. */
  predicate Truthy(v: JsValue)
  {
    match v
    case Undefined => false
    case Null => false
    case Bool(b) => b
    case Num(n) => n != 0
    case Str(s) => s != ""
    case Arr(_) => true
    case Obj(_) => true
  }

  /** `typeof v === "object"`, which holds for null as well. */
  predicate IsObject(v: JsValue)
  {
    v.Null? || v.Arr? || v.Obj?
  }

  /** `v.message`: the value of an own `message` property, undefined when there is
      none, and None where the read throws a TypeError (v is null or undefined). No
      primitive and no array has a `message`. */
  function Message(v: JsValue): (r: Option<JsValue>)
    ensures r.None? <==> v.Null? || v.Undefined?
    ensures r.Some? && !v.Obj? ==> r.value == Undefined
  {
    if v.Null? || v.Undefined? then None
    else if v.Obj? then Some(Lookup(v.props, "message"))
    else Some(Undefined)
  }

  function Lookup(props: seq<(string, JsValue)>, name: string): JsValue
  {
    if props == [] then Undefined
    else if props[0].0 == name then props[0].1
    else Lookup(props[1..], name)
  }

  function DigitChar(d: nat): char
    requires d < 10
  {
    ('0' as int + d) as char
  }

  /** Decimal digits of a natural number, without leading zeros. */
  function Digits(n: nat): (r: string)
    ensures |r| >= 1 && forall i | 0 <= i < |r| :: '0' <= r[i] <= '9'
  {
    if n < 10 then [DigitChar(n)] else Digits(n / 10) + [DigitChar(n % 10)]
  }

  /** `Number.prototype.toString()` for an integer value. */
  function Decimal(n: int): string
  {
    if n < 0 then "-" + Digits(-n) else Digits(n)
  }

  /** `String(v)` for a value that is not an object. */
  function PrimitiveString(v: JsValue): string
    requires !IsObject(v)
  {
    match v
    case Undefined => "undefined"
    case Bool(b) => if b then "true" else "false"
    case Num(n) => Decimal(n)
    case Str(s) => s
  }

  function HexDigit(d: nat): char
    requires d < 16
  {
    if d < 10 then DigitChar(d) else ('a' as int + d - 10) as char
  }

  /** How QuoteJSONString writes one code unit inside a string literal. */
  function EscapeChar(c: char): (r: string)
    ensures |r| >= 1
  {
    if c == '\U{0008}' then "\\b"
    else if c == '\t' then "\\t"
    else if c == '\n' then "\\n"
    else if c == '\U{000C}' then "\\f"
    else if c == '\r' then "\\r"
    else if c == '"' then "\\\""
    else if c == '\\' then "\\\\"
    else if c < ' ' then "\\u00" + [HexDigit(c as int / 16), HexDigit(c as int % 16)]
    else [c]
  }

  function Concat(parts: seq<string>): string
  {
    if parts == [] then "" else parts[0] + Concat(parts[1..])
  }

  /** The inside of the string literal: each character escaped in turn. */
  function Escape(s: string): string
  {
    Concat(seq(|s|, i requires 0 <= i < |s| => EscapeChar(s[i])))
  }

  lemma EscapeCons(s: string)
    requires s != []
    ensures Escape(s) == EscapeChar(s[0]) + Escape(s[1..])
  {
    var parts := seq(|s|, i requires 0 <= i < |s| => EscapeChar(s[i]));
    assert parts[1..] == seq(|s| - 1, i requires 0 <= i < |s| - 1 => EscapeChar(s[1..][i]));
  }

  /** A JSON string literal. */
  function Quote(s: string): string
  {
    "\"" + Escape(s) + "\""
  }

  /** The strings joined with commas between them. */
  function JoinCommas(parts: seq<string>): string
  {
    if parts == [] then ""
    else if |parts| == 1 then parts[0]
    else parts[0] + "," + JoinCommas(parts[1..])
  }

  /** `JSON.stringify(v)`; None where JavaScript returns undefined. */
  function Stringify(v: JsValue): (r: Option<string>)
    ensures r.None? <==> v == Undefined
    decreases v
  {
    match v
    case Undefined => None
    case Null => Some("null")
    case Bool(b) => Some(if b then "true" else "false")
    case Num(n) => Some(Decimal(n))
    case Str(s) => Some(Quote(s))
    case Arr(items) => Some("[" + JoinCommas(ItemTexts(items)) + "]")
    case Obj(props) => Some("{" + JoinCommas(MemberTexts(props)) + "}")
  }

  /** Array elements: one text per element, "null" where the element has none. */
  function ItemTexts(items: seq<JsValue>): (r: seq<string>)
    ensures |r| == |items|
    decreases items
  {
    if items == [] then []
    else
      var t := Stringify(items[0]);
      [if t.Some? then t.value else "null"] + ItemTexts(items[1..])
  }

  /** Object members: `"key":value`, skipping members whose value has no text. */
  function MemberTexts(props: seq<(string, JsValue)>): (r: seq<string>)
    ensures |r| <= |props|
    decreases props
  {
    if props == [] then []
    else MemberText(props[0]) + MemberTexts(props[1..])
  }

  function MemberText(member: (string, JsValue)): (r: seq<string>)
    ensures |r| <= 1
    decreases member
  {
    var t := Stringify(member.1);
    if t.Some? then [Quote(member.0) + ":" + t.value] else []
  }

  /** Characters a JSON string literal may hold without escaping. */
  predicate Plain(c: char)
  {
    c >= ' ' && c != '"' && c != '\\'
  }

  /** Text made of plain characters is written as it is. */
  lemma {:induction false} EscapePlain(s: string)
    requires forall i | 0 <= i < |s| :: Plain(s[i])
    ensures Escape(s) == s
  {
    if s != [] {
      EscapeCons(s);
      EscapePlain(s[1..]);
    }
  }

  /** An object with one string-valued member whose key and value need no escaping
      is written as the two texts quoted, between braces. */
  lemma StringifyPlainMember(k: string, m: string)
    requires forall i | 0 <= i < |k| :: Plain(k[i])
    requires forall i | 0 <= i < |m| :: Plain(m[i])
    ensures Stringify(Obj([(k, Str(m))])) == Some("{\"" + k + "\":\"" + m + "\"}")
  {
    EscapePlain(k);
    EscapePlain(m);
    var member := (k, Str(m));
    var t := Quote(k) + ":" + Quote(m);
    assert MemberText(member) == [t];
    assert MemberTexts([member]) == MemberText(member) + MemberTexts([]);
    assert JoinCommas(MemberTexts([member])) == t;
    assert "{" + t + "}" == "{\"" + k + "\":\"" + m + "\"}";
  }

  function HexValue(c: char): (r: Option<nat>)
    ensures r.Some? ==> r.value < 16
  {
    if '0' <= c <= '9' then Some(c as int - '0' as int)
    else if 'a' <= c <= 'f' then Some(c as int - 'a' as int + 10)
    else if 'A' <= c <= 'F' then Some(c as int - 'A' as int + 10)
    else None
  }

  function Prepend(c: char, rest: Option<string>): Option<string>
  {
    if rest.Some? then Some([c] + rest.value) else None
  }

  /** The characters a JSON reader takes from the inside of a string literal
      (section 7 of RFC 8259); None for text no literal can hold. Escapes of
      surrogate halves are not read. */
  function Unescape(t: string): Option<string>
    decreases |t|
  {
    if t == [] then Some("")
    else if t[0] == '"' || t[0] < ' ' then None
    else if t[0] != '\\' then Prepend(t[0], Unescape(t[1..]))
    else if |t| < 2 then None
    else if t[1] == '"' || t[1] == '\\' || t[1] == '/' then Prepend(t[1], Unescape(t[2..]))
    else if t[1] == 'b' then Prepend('\U{0008}', Unescape(t[2..]))
    else if t[1] == 'f' then Prepend('\U{000C}', Unescape(t[2..]))
    else if t[1] == 'n' then Prepend('\n', Unescape(t[2..]))
    else if t[1] == 'r' then Prepend('\r', Unescape(t[2..]))
    else if t[1] == 't' then Prepend('\t', Unescape(t[2..]))
    else if t[1] == 'u' && |t| >= 6 then
      var h0, h1, h2, h3 := HexValue(t[2]), HexValue(t[3]), HexValue(t[4]), HexValue(t[5]);
      if h0.None? || h1.None? || h2.None? || h3.None? then None
      else
        var n := ((h0.value * 16 + h1.value) * 16 + h2.value) * 16 + h3.value;
        if 0xD800 <= n < 0xE000 then None else Prepend(n as char, Unescape(t[6..]))
    else None
  }

  lemma UnescapeChar(c: char, rest: string)
    ensures Unescape(EscapeChar(c) + rest) == Prepend(c, Unescape(rest))
  {
    var t := EscapeChar(c) + rest;
    if c < ' ' && c !in "\U{0008}\t\n\U{000C}\r" {
      assert t[6..] == rest;
      assert HexValue(t[4]).value == c as int / 16;
      assert HexValue(t[5]).value == c as int % 16;
    } else if |EscapeChar(c)| == 2 {
      assert t[2..] == rest;
    } else {
      assert t[1..] == rest;
    }
  }

  /** Escaping is undone by a JSON reader: the literal carries exactly the string. */
  lemma {:induction false} UnescapeEscape(s: string)
    ensures Unescape(Escape(s)) == Some(s)
  {
    if s != [] {
      EscapeCons(s);
      UnescapeChar(s[0], Escape(s[1..]));
      UnescapeEscape(s[1..]);
      assert [s[0]] + s[1..] == s;
    }
  }
}

=== FILE: normalizer.dfy ===
/** The request side of the serverless adapter (netlify/functions/api.ts:10-27):
    the host's invocation event becomes the request object handed to the
    middleware chain. `JSON.parse` is library behaviour and enters as the
    parameter `parse`, None where it throws. */
module Normalizer {

  import opened Wrappers
  import opened JsonText

  /** The fields of the host's event the adapter reads; absent fields are None. */
  datatype Event = Event(
    httpMethod: Option<string>,
    rawUrl: Option<string>,
    path: Option<string>,
    headers: Option<map<string, string>>,
    body: JsValue,
    queryStringParameters: Option<map<string, string>>)

  /** The request object the middleware chain receives (its `on`/`once` hooks aside);
      `verb` is its `method` field. */
  datatype Request = Request(
    verb: string,
    url: string,
    headers: map<string, string>,
    body: JsValue,
    query: map<string, string>,
    params: map<string, string>,
    rawBody: string)

  /** A string property counts only when present and non-empty, as `||` sees it. */
  predicate Given(o: Option<string>)
  {
    o.Some? && o.value != ""
  }

  /** The body text: a string body as it is, any other truthy body as its JSON
      text, and "" when the body is falsy. */
  function BodyText(body: JsValue): (t: string)
    ensures !Truthy(body) ==> t == ""
    ensures body.Str? ==> t == body.s
    ensures Truthy(body) && !body.Str? ==> Some(t) == Stringify(body)
  {
    if Truthy(body) then
      if body.Str? then body.s else Stringify(body).value
    else ""
  }

  /** The decoded body: {} for empty text, the parsed value when the text parses,
      and the text itself when parsing throws. */
  function DecodeBody(text: string, parse: string -> Option<JsValue>): (v: JsValue)
    ensures text == "" ==> v == Obj([])
    ensures text != "" && parse(text).None? ==> v == Str(text)
    ensures text != "" && parse(text).Some? ==> v == parse(text).value
  {
    if text != "" then
      match parse(text)
      case Some(parsed) => parsed
      case None => Str(text)
    else Obj([])
  }

  function Normalize(e: Event, parse: string -> Option<JsValue>): (r: Request)
    ensures r.verb != "" && r.url != ""
    ensures Given(e.httpMethod) ==> r.verb == e.httpMethod.value
    ensures !Given(e.httpMethod) ==> r.verb == "GET"
    ensures Given(e.rawUrl) ==> r.url == e.rawUrl.value
    ensures !Given(e.rawUrl) && Given(e.path) ==> r.url == e.path.value
    ensures !Given(e.rawUrl) && !Given(e.path) ==> r.url == "/"
    ensures e.headers.Some? ==> r.headers == e.headers.value
    ensures e.headers.None? ==> r.headers == map[]
    ensures e.queryStringParameters.Some? ==> r.query == e.queryStringParameters.value
    ensures e.queryStringParameters.None? ==> r.query == map[]
    ensures r.params == map[]
    ensures r.rawBody == BodyText(e.body) && r.body == DecodeBody(r.rawBody, parse)
  {
    var text := BodyText(e.body);
    Request(
      if Given(e.httpMethod) then e.httpMethod.value else "GET",
      if Given(e.rawUrl) then e.rawUrl.value else if Given(e.path) then e.path.value else "/",
      if e.headers.Some? then e.headers.value else map[],
      DecodeBody(text, parse),
      if e.queryStringParameters.Some? then e.queryStringParameters.value else map[],
      map[],
      text)
  }

  /** An event without a body (or with a falsy one) yields the empty object and empty text. */
  lemma AbsentBodyIsEmptyObject(e: Event, parse: string -> Option<JsValue>)
    requires !Truthy(e.body)
    ensures Normalize(e, parse).body == Obj([]) && Normalize(e, parse).rawBody == ""
  {
  }

  /** Body text that does not parse reaches the chain unchanged, as body and as raw text. */
  lemma UnparsableTextKept(e: Event, parse: string -> Option<JsValue>)
    requires e.body.Str? && e.body.s != "" && parse(e.body.s).None?
    ensures Normalize(e, parse).body == e.body && Normalize(e, parse).rawBody == e.body.s
  {
  }

  /** A structured body is re-encoded and re-parsed: it arrives unchanged exactly
      when parsing its JSON text gives it back, and rawBody is that JSON text. */
  lemma StructuredBodyRoundTrip(e: Event, parse: string -> Option<JsValue>)
    requires Truthy(e.body) && !e.body.Str?
    ensures Some(Normalize(e, parse).rawBody) == Stringify(e.body)
    ensures Normalize(e, parse).body == e.body <==> parse(Stringify(e.body).value) == Some(e.body)
  {
    var t := Stringify(e.body).value;
    assert t != "" by {
      match e.body
      case Null =>
      case Bool(b) =>
      case Num(n) => assert Decimal(n) != "";
      case Arr(_) =>
      case Obj(_) =>
    }
  }
}

=== FILE: shortcut.dfy ===
/** The hidden keyboard shortcut of the home page (client/pages/Index.tsx:33-48):
    every key pressed is appended to a window of at most six characters; when the
    window reads "331548" the import dialog opens and the window is emptied. */
module Shortcut {

  /** The secret sequence. */
  const Code := "331548"

  predicate EndsWith(s: string, t: string)
  {
    |t| <= |s| && s[|s| - |t|..] == t
  }

  /** `pressed.slice(-6)` when longer than six: the last six characters. */
  function Window(s: string): (w: string)
    ensures |w| == if |s| > |Code| then |Code| else |s|
    ensures EndsWith(s, w)
  {
    if |s| > |Code| then s[|s| - |Code|..] else s
  }

  /** One keydown on the window: the new window and whether the dialog opens. */
  function Press(pressed: string, key: string): (r: (string, bool))
    ensures |r.0| <= |Code|
    ensures r.1 <==> Window(pressed + key) == Code
    ensures r.1 ==> r.0 == ""
    ensures !r.1 ==> r.0 == Window(pressed + key)
  {
    var w := Window(pressed + key);
    if w == Code then ("", true) else (w, false)
  }

  /** The listener's closure variable and the dialog flag it sets. */
  class ImportShortcut {
    var pressed: string
    var showImportDialog: bool

    constructor ()
      ensures pressed == "" && !showImportDialog
    {
      pressed, showImportDialog := "", false;
    }

    /** `handleKeyDown(e)` with `e.key == key`. */
    method HandleKeyDown(key: string)
      modifies this
      ensures pressed == Press(old(pressed), key).0
      ensures showImportDialog == (old(showImportDialog) || Press(old(pressed), key).1)
      ensures |pressed| <= |Code|
    {
      pressed := pressed + key;
      if |pressed| > |Code| {
        pressed := pressed[|pressed| - |Code|..];
      }
      if pressed == Code {
        showImportDialog := true;
        pressed := "";
      }
    }
  }

  /** The window after typing `h` one character per keydown from the empty window. */
  function Typed(h: string): (w: string)
    ensures |w| <= |Code|
  {
    if h == [] then "" else Press(Typed(h[..|h| - 1]), [h[|h| - 1]]).0
  }

  /** Whether the last character of `h`, typed after the others, opens the dialog. */
  predicate OpensOnLast(h: string)
    requires h != []
  {
    Press(Typed(h[..|h| - 1]), [h[|h| - 1]]).1
  }

  /** No proper prefix of the code is also a suffix of it, so two occurrences of the
      code in a text never overlap. */
  lemma CodeHasNoBorder(d: nat)
    requires 0 < d < |Code|
    ensures Code[d..] != Code[..|Code| - d]
  {
    assert Code[d..][|Code| - d - 1] == '8';
    assert Code[..|Code| - d][|Code| - d - 1] != '8';
  }

  lemma NoOverlap(h: string, p: nat)
    requires p <= |h| && EndsWith(h[..p], Code) && EndsWith(h, Code)
    ensures p == |h| || p + |Code| <= |h|
  {
    if p < |h| < p + |Code| {
      var d := |h| - p;
      assert Code[d..] == h[|h| - |Code| .. p] by {
        assert h[..p][p - |Code|..] == Code;
        assert h[..p][p - |Code|..][d..] == h[|h| - |Code| .. p];
      }
      assert Code[..|Code| - d] == h[|h| - |Code| .. p] by {
        assert h[|h| - |Code|..][..|Code| - d] == h[|h| - |Code| .. p];
      }
      CodeHasNoBorder(d);
    }
  }

  /** What the window holds after typing `h`: the end of `h`; when shorter than the
      code, everything typed since the dialog last opened, which then ended `h` there. */
  predicate WindowInvariant(h: string, w: string)
  {
    && EndsWith(h, w)
    && (|w| < |Code| ==> var p := |h| - |w|; p == 0 || EndsWith(h[..p], Code))
  }

  lemma {:induction false} TypedInvariant(h: string)
    ensures WindowInvariant(h, Typed(h))
    ensures h != [] ==> (OpensOnLast(h) <==> EndsWith(h, Code))
    decreases |h|
  {
    if h != [] {
      var g, c := h[..|h| - 1], h[|h| - 1];
      assert h == g + [c];
      TypedInvariant(g);
      StepInvariant(g, c, Typed(g));
    }
  }

  /** The new window is again an end of the text typed. */
  lemma WindowSuffix(g: string, c: char, w: string)
    requires EndsWith(g, w)
    ensures EndsWith(g + [c], Window(w + [c]))
  {
    var h, n := g + [c], Window(w + [c]);
    assert h[|h| - |w| - 1..] == g[|g| - |w|..] + [c];
    assert n == (w + [c])[|w| + 1 - |n|..];
    assert h[|h| - |n|..] == h[|h| - |w| - 1..][|w| + 1 - |n|..];
  }

  lemma FiresOnCode(g: string, c: char, w: string)
    requires |w| <= |Code| && WindowInvariant(g, w)
    ensures Window(w + [c]) == Code <==> EndsWith(g + [c], Code)
  {
    var h, n := g + [c], Window(w + [c]);
    WindowSuffix(g, c, w);
    if EndsWith(h, Code) && n != Code {
      var p := |g| - |w|;
      if p != 0 {
        assert h[..p] == g[..p];
        NoOverlap(h, p);
      }
    }
  }

  lemma FiredInvariant(h: string)
    requires EndsWith(h, Code)
    ensures WindowInvariant(h, "")
  {
    assert h[..|h|] == h;
  }

  lemma KeptInvariant(g: string, c: char, w: string)
    requires |w| <= |Code| && WindowInvariant(g, w)
    ensures WindowInvariant(g + [c], Window(w + [c]))
  {
    var h, n := g + [c], Window(w + [c]);
    WindowSuffix(g, c, w);
    if |n| < |Code| {
      assert h[..|h| - |n|] == g[..|g| - |w|];
    }
  }

  lemma StepInvariant(g: string, c: char, w: string)
    requires |w| <= |Code| && WindowInvariant(g, w)
    ensures WindowInvariant(g + [c], Press(w, [c]).0)
    ensures Press(w, [c]).1 <==> EndsWith(g + [c], Code)
  {
    FiresOnCode(g, c, w);
    if Window(w + [c]) == Code {
      FiredInvariant(g + [c]);
    } else {
      KeptInvariant(g, c, w);
    }
  }

  /** The shortcut fires on a keystroke exactly when the characters typed so far end
      with the code. */
  lemma OpensExactlyOnCode(h: string)
    requires h != []
    ensures OpensOnLast(h) <==> EndsWith(h, Code)
  {
    TypedInvariant(h);
  }
}

=== FILE: utf8.dfy ===
/** Byte buffers as the adapter uses them: `Buffer.from(text)` encodes a string as
    UTF-8 and `Buffer.concat(chunks).toString("utf-8")` decodes bytes back to text,
    replacing ill-formed input as the WHATWG Encoding Standard's UTF-8 decoder does. */
module Utf8 {

  newtype byte = x: int | 0 <= x < 256

  /** U+FFFD, the character a decoder emits for ill-formed input. */
  const Replacement: char := '\U{FFFD}'

  /** The bytes UTF-8 uses for one Unicode scalar value. */
  function EncodeChar(c: char): (r: seq<byte>)
    ensures 1 <= |r| <= 4
  {
    var n := c as int;
    if n < 0x80 then [n as byte]
    else if n < 0x800 then [(0xC0 + n / 0x40) as byte, (0x80 + n % 0x40) as byte]
    else if n < 0x1_0000 then
      [(0xE0 + n / 0x1000) as byte, (0x80 + n / 0x40 % 0x40) as byte, (0x80 + n % 0x40) as byte]
    else
      [(0xF0 + n / 0x4_0000) as byte, (0x80 + n / 0x1000 % 0x40) as byte,
       (0x80 + n / 0x40 % 0x40) as byte, (0x80 + n % 0x40) as byte]
  }

  /** `Buffer.from(s)`: the UTF-8 encoding of a string, character by character. */
  function Encode(s: string): seq<byte>
  {
    if s == [] then [] else EncodeChar(s[0]) + Encode(s[1..])
  }

  /** `Buffer.concat(chunks)`: the chunks' bytes, in order. */
  function Flatten(chunks: seq<seq<byte>>): seq<byte>
  {
    if chunks == [] then [] else chunks[0] + Flatten(chunks[1..])
  }

  /** How many continuation bytes a lead byte announces; 0 for an ASCII byte and
      for a byte that cannot start a sequence. */
  function Needed(lead: byte): nat
  {
    if 0xC2 <= lead <= 0xDF then 1
    else if 0xE0 <= lead <= 0xEF then 2
    else if 0xF0 <= lead <= 0xF4 then 3
    else 0
  }

  /** The range the byte after `lead` must fall in; the tighter bounds after E0, ED, F0
      and F4 exclude overlong forms, surrogates and values above U+10FFFF. */
  predicate ContinuationOk(lead: byte, b: byte, first: bool)
  {
    if first then
      (if lead == 0xE0 then 0xA0 else if lead == 0xF0 then 0x90 else 0x80) <= b
      && b <= (if lead == 0xED then 0x9F else if lead == 0xF4 then 0x8F else 0xBF)
    else 0x80 <= b <= 0xBF
  }

  /** How many of the bytes after `bs[0]` the decoder accepts as continuation bytes:
      it stops at the first byte out of range, at the end of input, or when the
      sequence is complete. */
  function Accepted(bs: seq<byte>): (k: nat)
    requires |bs| > 0
    ensures k <= Needed(bs[0]) && k < |bs|
    ensures forall j | 1 <= j <= k :: ContinuationOk(bs[0], bs[j], j == 1)
    ensures k < Needed(bs[0]) && k + 1 < |bs| ==> !ContinuationOk(bs[0], bs[k + 1], k == 0)
  {
    var need := Needed(bs[0]);
    if need >= 1 && |bs| > 1 && ContinuationOk(bs[0], bs[1], true) then
      if need >= 2 && |bs| > 2 && ContinuationOk(bs[0], bs[2], false) then
        if need >= 3 && |bs| > 3 && ContinuationOk(bs[0], bs[3], false) then 3 else 2
      else 1
    else 0
  }

  /** The scalar value of a complete, well-formed multi-byte sequence. */
  function Assemble(bs: seq<byte>): (c: char)
    requires |bs| > 0 && 1 <= Needed(bs[0]) && |bs| == Needed(bs[0]) + 1
    requires forall j | 1 <= j < |bs| :: ContinuationOk(bs[0], bs[j], j == 1)
    ensures c as int >= 0x80
  {
    var lead, b1 := bs[0] as int, bs[1] as int - 0x80;
    assert ContinuationOk(bs[0], bs[1], true);
    if |bs| == 2 then
      ((lead - 0xC0) * 0x40 + b1) as char
    else
      assert ContinuationOk(bs[0], bs[2], false);
      var b2 := bs[2] as int - 0x80;
      if |bs| == 3 then
        ((lead - 0xE0) * 0x1000 + b1 * 0x40 + b2) as char
      else
        assert ContinuationOk(bs[0], bs[3], false);
        var b3 := bs[3] as int - 0x80;
        ((lead - 0xF0) * 0x4_0000 + b1 * 0x1000 + b2 * 0x40 + b3) as char
  }

  /** `toString("utf-8")`: well-formed sequences become their characters; each
      maximal ill-formed subsequence becomes one U+FFFD, and the byte that broke
      it is decoded afresh. */
  function Decode(bs: seq<byte>): string
    decreases |bs|
  {
    if bs == [] then ""
    else if bs[0] < 0x80 then [(bs[0] as int) as char] + Decode(bs[1..])
    else if Needed(bs[0]) == 0 then [Replacement] + Decode(bs[1..])
    else
      var k := Accepted(bs);
      if k == Needed(bs[0]) then [Assemble(bs[..k + 1])] + Decode(bs[k + 1..])
      else [Replacement] + Decode(bs[k + 1..])
  }

  /** Encoding distributes over concatenation. */
  lemma {:induction false} EncodeAppend(a: string, b: string)
    ensures Encode(a + b) == Encode(a) + Encode(b)
  {
    if a == [] {
      assert a + b == b;
    } else {
      assert (a + b)[1..] == a[1..] + b;
      EncodeAppend(a[1..], b);
    }
  }

  /** The decoder reads back exactly the character the encoder wrote, and resumes
      right after its bytes. */
  lemma DecodeEncodeChar(c: char, rest: seq<byte>)
    ensures Decode(EncodeChar(c) + rest) == [c] + Decode(rest)
  {
    var n := c as int;
    var bs := EncodeChar(c) + rest;
    if n < 0x80 {
      assert bs[1..] == rest;
    } else if n < 0x800 {
      DecodeTwoBytes(c, rest);
    } else if n < 0x1_0000 {
      DecodeThreeBytes(c, rest);
    } else {
      DecodeFourBytes(c, rest);
    }
  }

  lemma DecodeTwoBytes(c: char, rest: seq<byte>)
    requires 0x80 <= c as int < 0x800
    ensures Decode(EncodeChar(c) + rest) == [c] + Decode(rest)
  {
    var n := c as int;
    var bs := EncodeChar(c) + rest;
    assert bs[..2] == EncodeChar(c) && bs[2..] == rest;
    assert Needed(bs[0]) == 1;
    assert Accepted(bs) == 1;
    assert Assemble(bs[..2]) as int == n;
  }

  lemma DecodeThreeBytes(c: char, rest: seq<byte>)
    requires 0x800 <= c as int < 0x1_0000
    ensures Decode(EncodeChar(c) + rest) == [c] + Decode(rest)
  {
    var n := c as int;
    var bs := EncodeChar(c) + rest;
    assert bs[..3] == EncodeChar(c) && bs[3..] == rest;
    assert n / 0x40 == n / 0x1000 * 0x40 + n / 0x40 % 0x40;
    assert Needed(bs[0]) == 2;
    assert ContinuationOk(bs[0], bs[1], true);
    assert Accepted(bs) == 2;
    assert Assemble(bs[..3]) as int == n;
  }

  lemma DecodeFourBytes(c: char, rest: seq<byte>)
    requires 0x1_0000 <= c as int
    ensures Decode(EncodeChar(c) + rest) == [c] + Decode(rest)
  {
    var n := c as int;
    var bs := EncodeChar(c) + rest;
    assert bs[..4] == EncodeChar(c) && bs[4..] == rest;
    assert n / 0x1000 == n / 0x4_0000 * 0x40 + n / 0x1000 % 0x40;
    assert n / 0x40 == n / 0x1000 * 0x40 + n / 0x40 % 0x40;
    assert Needed(bs[0]) == 3;
    assert ContinuationOk(bs[0], bs[1], true);
    assert Accepted(bs) == 3;
    assert Assemble(bs[..4]) as int == n;
  }

  lemma DecodeEncodeFirst(s: string, rest: seq<byte>)
    requires s != []
    ensures Decode(Encode(s) + rest) == [s[0]] + Decode(Encode(s[1..]) + rest)
  {
    assert Encode(s) + rest == EncodeChar(s[0]) + (Encode(s[1..]) + rest);
    DecodeEncodeChar(s[0], Encode(s[1..]) + rest);
  }

  /** Decoding undoes encoding, also in front of any further bytes. */
  lemma {:induction false} DecodeEncode(s: string, rest: seq<byte>)
    ensures Decode(Encode(s) + rest) == s + Decode(rest)
  {
    if s == [] {
      assert Encode(s) + rest == rest;
    } else {
      DecodeEncodeFirst(s, rest);
      DecodeEncode(s[1..], rest);
      assert [s[0]] + (s[1..] + Decode(rest)) == s + Decode(rest);
    }
  }

  /** The text round trip: `Buffer.from(s).toString("utf-8") === s`. */
  lemma RoundTrip(s: string)
    ensures Decode(Encode(s)) == s
  {
    DecodeEncode(s, []);
    assert Encode(s) + [] == Encode(s);
  }

  /** `Buffer.concat` distributes over concatenation of chunk lists. */
  lemma {:induction false} FlattenAppend(a: seq<seq<byte>>, b: seq<seq<byte>>)
    ensures Flatten(a + b) == Flatten(a) + Flatten(b)
  {
    if a == [] {
      assert a + b == b;
    } else {
      assert (a + b)[1..] == a[1..] + b;
      FlattenAppend(a[1..], b);
    }
  }
}

=== FILE: wrappers.dfy ===
/** Optional values: a JavaScript property that may be absent, a parse that may fail,
    a promise that may not have settled yet. */
module Wrappers {

  datatype Option<+T> = None | Some(value: T)
}
